=== FILE: README.md ===
# Transaction dashboard logic

This project models the logic beneath a React revenue dashboard. The
dashboard loads a list of transactions and shows only those the committed
filter keeps. Each transaction is one row showing a formatted amount and a
formatted date. A multi-select drop-down is used to pick the filter values.
The model covers four pieces.

- **The visible list** (`TransactionFilter`): what `filteredTransactions`
  keeps. The first filter dimension that is set decides alone:
  - a date range with both bounds, compared from the start of the first
    day to the end of the last day;
  - otherwise a non-empty type list, compared ignoring case;
  - otherwise a non-empty status list, compared ignoring case;
  - otherwise everything is kept.

  Instants are integer milliseconds on the local clock. The two
  `setHours` calls become day-floor arithmetic.
- **Money and dates** (`Money`, `DateFormat`, with the shared `Decimal`
  numerals):
  - `formatMoney` is modelled step for step. First comes the en-US USD
    text that `Intl.NumberFormat` produces. Then come the four
    `String.prototype.replace` calls, each of which replaces only the first
    occurrence. A lemma proves the result equals a direct layout: the sign,
    `USD`, one space, the grouped whole dollars, and a point with two digits
    only when there are cents.
  - Amounts are integer **cents**. The source's `formatMoney(value)` takes
    dollars, so `value = cents / 100`.
  - `formatDate` is modelled on the local calendar day that `new Date`
    decodes. It gives "Mon D, YYYY", or the invalid-date text.
  - Inverse readers (`ReadMoney`, `ReadDate`) show that no two amounts and
    no two days share a text.
- **The multi-select** (`CustomSelect`): the state `{isOpen, selected}` and
  its events:
  - pressing the input, which works only when there are options;
  - a mouse press outside, which closes the list;
  - pressing an option, which appends the value or removes every copy of it.

  The rule that passes the selection to the parent is modelled over a
  whole session.
- **The list view** (`TransactionList`): the derivations of the
  `Transactions` component:
  - the count heading;
  - the empty state or one row per transaction;
  - each row's title and subtitle fallbacks;
  - the filter badge, which counts the keys of the filters object;
  - the shallow merge `{...filters, ...data}`.

`Types` holds the transaction record, with its `type` field renamed `kind`,
and the filter record. `Calendar` holds calendar dates, the proleptic
Gregorian day count and the decoded result of `new Date`. The filter reads
a decoded date's instant and the row text reads its calendar day. Each
builds its own `Date` from the transaction's date text, and decoding the same
text gives the same value, so a decoded date requires the instant's local
day number to equal the day count of its calendar day.

Two details of the code are kept as written:
- the badge counts the keys of the filters object;
- a row is a withdrawal only on an exact, case-sensitive `"withdrawal"`,
  while the filter compares types ignoring case.

## Model

| member | source | states |
|---|---|---|
| Basics.Lower | src/App.tsx:103-104 | lower-casing keeps the length and maps each character to its ASCII lower case |
| Basics.LowerAllContains | src/App.tsx:102-104 | the lower-cased list contains `s` iff some entry of the original list lower-cases to `s` |
| TransactionFilter.DayBounds | src/App.tsx:93-98 | an instant lies between its start of day and its end of day, and the start of day is a whole multiple of the day length |
| TransactionFilter.EndOfDayIdempotent | src/App.tsx:96-98 | setting the end bound to the end of its day twice equals doing it once, so the in-place mutation of the committed end date does not change a later filtering |
| TransactionFilter.RangeByDay | src/App.tsx:92-99 | an instant is inside [start of day of a, end of day of b] iff its day number is between the day numbers of a and b |
| TransactionFilter.DateRangeDecides | src/App.tsx:87-100 | with both bounds set, a transaction is kept iff its date is valid and falls within the inclusive range, or equivalently its day is between the two days |
| TransactionFilter.DateRangeByCalendarDay | src/App.tsx:92-99 | with both bounds set, a transaction is kept iff its date is valid and the day count of its calendar day, the day its row shows, lies between the days of the two bounds |
| TransactionFilter.DateRangeIgnoresLists | src/App.tsx:87-100 | with both bounds set, replacing the type and status lists by anything leaves the decision unchanged |
| TransactionFilter.IncompleteRangeIgnored | src/App.tsx:87-91 | a date range missing either bound decides exactly as no date range |
| TransactionFilter.TypeListDecides | src/App.tsx:101-105 | without a complete range, a non-empty type list keeps a transaction iff some listed type equals its type ignoring case, and the status list has no effect |
| TransactionFilter.StatusListDecides | src/App.tsx:106-110 | with only a non-empty status list, a transaction is kept iff some listed status equals its status ignoring case |
| TransactionFilter.NothingSetKeepsAll | src/App.tsx:111 | with no complete range and no non-empty list, every transaction is kept |
| TransactionFilter.KeepIgnoresCase | src/App.tsx:101-110 | two transactions with the same date and the same type and status up to case are both kept or both dropped |
| TransactionFilter.VisibleMembers | src/App.tsx:86 | a transaction is visible iff it is in the input and the filter keeps it |
| TransactionFilter.VisibleIsSubsequence | src/App.tsx:86 | the visible list is an order-preserving subsequence of the input |
| TransactionFilter.VisibleIdempotent | src/App.tsx:86 | filtering the visible list again with the same filter gives the same list |
| TransactionFilter.VisibleAllKept | src/App.tsx:86 | a list whose every transaction is kept is shown unchanged |
| TransactionFilter.NoFiltersShowsAll | src/App.tsx:22 | with the initial empty filter the visible list equals the whole input |
| TransactionFilter.ScenarioDaysAgree | src/App.tsx:92 | the scenario's instants fall on the calendar days they are paired with, and an instant of 2024-01-14 paired with 2024-01-15 is not a decoded date |
| TransactionFilter.ScenarioTypeFilter | src/App.tsx:101-105 | a type filter for "withdrawal" keeps only the withdrawal of a deposit and a withdrawal |
| TransactionFilter.ScenarioDateRangeWins | src/App.tsx:87-100 | a one-day range on 2024-01-14 keeps only that day's withdrawal, even with a type filter for deposits also set |
| Calendar.DaysFromCivilEpoch | src/utils/index.ts:13 | 1970-01-01 is day 0 and 1969-12-31 is day -1 |
| Calendar.DaysFromCivilNextDay | src/utils/index.ts:13 | within a month, the next day has the next day number |
| Calendar.DaysFromCivilNextMonth | src/utils/index.ts:13 | the first of a month follows the last day of the month before, for months 1 to 11 of every year; December to January is DaysFromCivilNextYear |
| Calendar.MarchFollowsFebruary | src/utils/index.ts:13 | 1 March follows 28 February, or 29 February in a Gregorian leap year |
| Calendar.YearLength | src/utils/index.ts:13 | from one 1 March to the next there are 366 days when the February between has a leap day, otherwise 365 |
| Calendar.DaysFromCivilNextYear | src/utils/index.ts:13 | 1 January follows 31 December |
| Decimal.NatToString | src/components/Transactions.tsx:31 | a number's numeral is non-empty, all digits, and starts with '0' only for zero |
| Decimal.PadDigits | src/utils/index.ts:2-6 | the padded numeral has exactly the requested width and only digits |
| Decimal.NatToStringValue | src/components/Transactions.tsx:31 | the digits of a numeral have the value of the number written |
| Decimal.ReadNatRoundTrip | src/components/Transactions.tsx:31 | reading a numeral gives back its number |
| Decimal.ReadIntRoundTrip | src/utils/index.ts:16 | reading a signed numeral, such as a year, gives back its integer |
| Money.ReplaceFirstHere | src/utils/index.ts:7-10 | `replace` on a text that starts with the pattern puts the replacement there and keeps the rest |
| Money.ReplaceFirstSkip | src/utils/index.ts:7-10 | `replace` passes over a prefix that cannot start the pattern and leaves it unchanged |
| Money.ReplaceFirstAbsent | src/utils/index.ts:10 | `replace` with a pattern whose first character is absent returns the text unchanged |
| Money.GroupThousandsChars | src/utils/index.ts:2-6 | the grouped integer part holds only digits and commas |
| Money.GroupThousandsShape | src/utils/index.ts:2-6 | the grouped integer part has a comma exactly at every fourth position from the right, with digits everywhere else |
| Money.GroupThousandsDigits | src/utils/index.ts:2-6 | deleting the commas from the grouped integer part leaves the plain numeral of the number |
| Money.ReadGroupedRoundTrip | src/utils/index.ts:2-6 | the grouped integer part reads back as its number |
| Money.LabelStep | src/utils/index.ts:7 | the `"$"` rewrite turns the symbol after the optional sign into `"USD  "` |
| Money.SpaceStep | src/utils/index.ts:8 | the `" "` rewrite removes only the first of the two spaces after the label |
| Money.FractionStep | src/utils/index.ts:9 | the `".00"` rewrite drops the fraction exactly when its two digits are "00" |
| Money.PadTwoZero | src/utils/index.ts:9 | the two fraction digits are "00" iff the cents part is zero |
| Money.RewriteLayout | src/utils/index.ts:7-10 | the four rewrites of an Intl text give sign, `"USD "`, the integer part and the fraction unless it is ".00", and the `"&nbsp;"` rewrite never applies |
| Money.FormatMoneyLayout | src/utils/index.ts:1-10 | `formatMoney` equals the direct layout: sign, label, one space, grouped whole dollars, and a point with two digits only when there are cents |
| Money.ReadAmountRoundTrip | src/utils/index.ts:2-9 | the grouped dollars followed by the fraction text read back as the amount in cents |
| Money.MoneyLayoutReads | src/utils/index.ts:1-10 | the direct layout of an amount reads back as that amount, sign included |
| Money.ReadMoneyRoundTrip | src/utils/index.ts:1-10 | every amount is recovered from its `formatMoney` text, so distinct amounts get distinct texts |
| Money.FormatMoneySign | src/utils/index.ts:7-8 | a negative amount's text starts "-USD " and any other amount's text starts "USD " |
| Money.FormatMoneyOneSpace | src/utils/index.ts:7-8 | the text holds exactly one space, right after "USD" |
| Money.FormatMoneyFraction | src/utils/index.ts:9 | the text has a point iff the amount is not whole dollars, and then ends in a point and two digits holding the cents |
| Money.FormatMoneyWhole | src/utils/index.ts:2-6 | after the label and space comes the grouped numeral of the whole dollars |
| Money.FormatMoneyThousand | src/test/utils/index.test.ts:5 | 1000 dollars format as "USD 1,000" |
| Money.FormatMoneyCents | src/test/utils/index.test.ts:6 | 1234.56 dollars format as "USD 1,234.56" |
| Money.FormatMoneyMillion | src/test/utils/index.test.ts:7 | 1000000 dollars format as "USD 1,000,000" |
| Money.FormatMoneyZero | src/test/utils/index.test.ts:11 | zero formats as "USD 0" |
| Money.FormatMoneyNegative | src/test/utils/index.test.ts:15 | -1000 dollars format as "-USD 1,000" |
| Money.FormatMoneyHundred | src/test/utils/index.test.ts:19 | 100.00 dollars format as "USD 100" |
| Money.FormatMoneyTrailingZero | src/test/utils/index.test.ts:23 | 1234.5 dollars format as "USD 1,234.50" |
| Money.FormatMoneyUnderThousand | src/test/utils/index.test.ts:24 | 99.99 dollars format as "USD 99.99" |
| Money.FormatMoneyLarge | src/test/utils/index.test.ts:28 | 1234567.89 dollars format as "USD 1,234,567.89" |
| DateFormat.MonthAbbrev | src/utils/index.ts:14 | every short month name has three letters |
| DateFormat.MonthNumber | src/utils/index.ts:14 | a name that is recognised is the short name of the month it gives |
| DateFormat.MonthNumberOfAbbrev | src/utils/index.ts:14 | every month's short name is recognised as that month |
| DateFormat.ReadDateRoundTrip | src/utils/index.ts:12-17 | every valid local day is recovered from its `formatDate` text, so distinct days get distinct texts |
| DateFormat.ReadInvalidDate | src/test/utils/index.test.ts:45-49 | the invalid-date text that an empty or unparsable date gives reads as no date |
| DateFormat.FormatDateExamples | src/test/utils/index.test.ts:33-55 | the days of the unit tests format as "Jan 15, 2024", "Dec 25, 2024" and "Jun 30, 2023" |
| DateFormat.FormatJan15 | src/test/utils/index.test.ts:34-36 | 2024-01-15 formats as "Jan 15, 2024" |
| DateFormat.FormatDec25 | src/test/utils/index.test.ts:40-42 | 2024-12-25 formats as "Dec 25, 2024" |
| DateFormat.FormatJun30 | src/test/utils/index.test.ts:52-54 | 2023-06-30 formats as "Jun 30, 2023" |
| CustomSelect.RemoveAll | src/components/ui/custom-select.tsx:90-92 | after filtering out `v`, `v` is absent and every other value occurs as often as before |
| CustomSelect.PressInputToggles | src/components/ui/custom-select.tsx:79 | pressing the input flips `isOpen` iff there are options, and never changes the selection |
| CustomSelect.MouseDownOutsideCloses | src/components/ui/custom-select.tsx:49-66 | a press outside closes the list and keeps the selection; a press inside changes nothing |
| CustomSelect.ToggleAppends | src/components/ui/custom-select.tsx:93-95 | pressing an unselected option appends it after the others, which keep their order |
| CustomSelect.ToggleRemoves | src/components/ui/custom-select.tsx:89-92 | pressing a selected option removes every occurrence of it and keeps the other values, with their multiplicities, in order |
| CustomSelect.RemoveAllIsSubsequence | src/components/ui/custom-select.tsx:90-92 | filtering out a value keeps the remaining values in their order |
| CustomSelect.RemoveAllAbsent | src/components/ui/custom-select.tsx:90-92 | filtering out a value that is not selected changes nothing |
| CustomSelect.RemoveAllAppended | src/components/ui/custom-select.tsx:89-95 | removing a value just appended to a selection without it gives back that selection |
| CustomSelect.ToggleTwiceRestores | src/components/ui/custom-select.tsx:89-95 | pressing the same unselected option twice restores the original selection |
| CustomSelect.RemoveAllNoDuplicates | src/components/ui/custom-select.tsx:90-92 | filtering a selection without duplicates leaves none |
| CustomSelect.ToggleKeepsNoDuplicates | src/components/ui/custom-select.tsx:89-95 | a selection without duplicates has none after any option press |
| CustomSelect.PressOptionFlipsCheck | src/components/ui/custom-select.tsx:81-98 | pressing a listed option of the open list flips its checkbox, changes the state and keeps the list open |
| CustomSelect.StepPushesOnlyClosed | src/components/ui/custom-select.tsx:68-71 | one event passes a selection to the parent exactly when it changes the state and leaves the list closed with something selected, the value passed being that selection; an event that leaves the state unchanged passes nothing |
| CustomSelect.OpenListPushesNothing | src/components/ui/custom-select.tsx:68-71 | while the list stays open (option presses and presses inside), nothing is passed to the parent however the selection changes, and the list stays open |
| CustomSelect.NoChangeWhileClosed | src/components/ui/custom-select.tsx:81-108 | while the list is closed no event changes the selection, because options are rendered only while open |
| CustomSelect.RunKeepsSync | src/components/ui/custom-select.tsx:68-71 | over any events, the parent only ever receives non-empty selections, earlier pushes are kept, and a closed list with a selection has that selection as the latest push |
| CustomSelect.SessionKeepsParentInSync | src/components/ui/custom-select.tsx:45-71 | from mount on, no empty selection reaches the parent, and whenever the list is closed with something selected the parent holds exactly that selection |
| CustomSelect.DisplayValueRoundTrip | src/components/ui/custom-select.tsx:24 | no selection shows as ""; otherwise the shown text splits back at ", " into the selection |
| CustomSelect.JoinSplits | src/components/ui/custom-select.tsx:24 | values without commas joined with ", " split back into the same values |
| TransactionList.HeadingCount | src/components/Transactions.tsx:31 | the heading reads back as the length of the list passed in |
| TransactionList.RowsOfIndexed | src/components/Transactions.tsx:60 | there is one row per transaction, and row i is the row of transaction i |
| TransactionList.BodyShape | src/components/Transactions.tsx:50-60 | the empty state is shown iff the list is empty; otherwise exactly one row per transaction is shown, in input order |
| TransactionList.WithdrawalRow | src/components/Transactions.tsx:63-89 | a withdrawal row has the withdrawal avatar, the title "Cash withdrawal", and the status as both subtitle and class |
| TransactionList.OtherRow | src/components/Transactions.tsx:76-89 | any other row's title is the product name or "Deposit" when missing, and its subtitle is the customer name or "Roy Cash" when missing, with no status class |
| TransactionList.RowReadsBack | src/components/Transactions.tsx:94-95 | a row's amount text reads back as the amount, and its date text as the local day or is the invalid-date text |
| TransactionList.FilterBadgeCount | src/components/Transactions.tsx:37-41 | the badge is shown iff the filters object has a key, and then shows the number of keys |
| TransactionList.MergeOverwrites | src/components/Transactions.tsx:105 | the merge has exactly the keys of both maps, takes the new data's values, and keeps every other value |
| TransactionList.MergeLaws | src/components/Transactions.tsx:105 | merging the same data twice is merging it once, merging nothing changes nothing, and the key count never shrinks |
| TransactionList.UnfilteredView | src/components/Transactions.tsx:31-60 | with no filters the heading counts every transaction, and every transaction of a non-empty list gets a row |
| TransactionList.HeadingOfTwo | src/test/components/Transactions.test.tsx:40-43 | a list of two transactions gets the heading "2 Transactions" |
| TransactionList.TwoTransactionsView | src/test/components/Transactions.test.tsx:39-73 | the unit tests' deposit and withdrawal give "2 Transactions" and two rows titled "Test Product" and "Cash withdrawal" |

## Left out

- Data loading is not modelled. This covers `handleFetchUser`, `handleFetchTransactions`, `handleWalletBalance`, `handleFetchData` and their `Promise.all` (src/App.tsx:31-83), which are network I/O.
- The one-second loading overlay timer (src/App.tsx:24-29) is not modelled, because it is a clock.
- `Intl.NumberFormat` and `Date` are abstracted, not modelled:
  - the amount is given as integer cents;
  - a date is given as its decoded instant and local calendar day, or as an invalid date.

  Time zones, locale data and ISO-8601 parsing belong to the host. The model
  only requires that the instant and the calendar day of a decoded date
  agree.
- Floating-point amounts are not modelled. This covers rounding to two places, `-0`, `NaN`, and the `amount || 0` fallback for `NaN`. In cents the fallback is the identity, since `0 || 0` is `0`.
- A date-range bound that is an invalid `Date` object (truthy but `NaN`) is left out. Bounds are optional instants.
- Years before year 1 are left out. `toLocaleDateString` writes them with an era, while the model writes the signed year.
- `String.prototype.toLowerCase` is modelled on ASCII letters only. Non-ASCII case mappings are left out.
- The filter drawer (src/components/drawers/FilterTransactions.tsx), its open flag, and the `Filter`/`Export list` buttons are left out. The drawer keeps only local UI state, and its apply and clear buttons have no handlers.
- The chart, header, sidebar and entry point are left out, because they are presentational only.
- The `filters` and `setFilters` props that App passes to `Transactions` (src/App.tsx:130-134) are left out, because the component ignores them. The badge and merge are modelled over the component's own filters object, as a map from keys to values.
- The unit test that expects a badge of "3" (src/test/components/Transactions.test.tsx:88-92) is not encoded. The component starts with no filters and so shows no badge.
- The `values` prop of `CustomSelect` is read only once, on mount (src/components/ui/custom-select.tsx:46). Later changes to that prop are left out, just as the component ignores them.
- DateFormat.FormatDateExamples: the unit tests check only the pattern `Mon \d{1,2}, YYYY`, because the day depends on the time zone. The model states the exact text for a given local day.
- CustomSelect.DisplayValueRoundTrip: holds only for values without commas. A comma inside a value makes the joined text ambiguous, though the join itself is total.

=== FILE: Basics.dfy ===
/** Small shared vocabulary: optional values, ASCII case folding, joining
    strings and ordered subsequences. */
module Basics {

  /** A value that may be absent: JavaScript's `undefined`/`null` for an
      optional field. */
  datatype Option<+T> = None | Some(value: T) {

    /** The `??` operator: the value if present, otherwise the fallback. */
    function GetOr(fallback: T): T {
      match this
      case Some(v) => v
      case None => fallback
    }
  }

  /** ASCII lower-casing of one character. */
  function LowerChar(c: char): char {
    if 'A' <= c <= 'Z' then (c as int + 32) as char else c
  }

  /** `String.prototype.toLowerCase`, restricted to ASCII letters. */
  function Lower(s: string): (r: string)
    ensures |r| == |s|
    ensures forall i :: 0 <= i < |s| ==> r[i] == LowerChar(s[i])
    decreases |s|
  {
    if |s| == 0 then "" else [LowerChar(s[0])] + Lower(s[1..])
  }

  /** `xs.map((x) => x.toLowerCase())`. */
  function LowerAll(xs: seq<string>): (r: seq<string>)
    decreases |xs|
  {
    if |xs| == 0 then [] else [Lower(xs[0])] + LowerAll(xs[1..])
  }

  /** The lower-cased list contains `s` exactly when some entry of the
      original list lower-cases to `s`. */
  lemma {:induction false} LowerAllContains(xs: seq<string>, s: string)
    ensures s in LowerAll(xs) <==> exists i :: 0 <= i < |xs| && Lower(xs[i]) == s
    decreases |xs|
  {
    if |xs| > 0 {
      LowerAllContains(xs[1..], s);
      if s in LowerAll(xs[1..]) {
        var i :| 0 <= i < |xs[1..]| && Lower(xs[1..][i]) == s;
        assert Lower(xs[i + 1]) == s;
      }
      if exists i :: 0 <= i < |xs| && Lower(xs[i]) == s {
        var i :| 0 <= i < |xs| && Lower(xs[i]) == s;
        if i > 0 {
          assert Lower(xs[1..][i - 1]) == s;
        }
      }
    }
  }

  /** `Array.prototype.join(sep)`. */
  function Join(xs: seq<string>, sep: string): string
    decreases |xs|
  {
    if |xs| == 0 then ""
    else if |xs| == 1 then xs[0]
    else xs[0] + sep + Join(xs[1..], sep)
  }

  /** The position of the first `c` in `s`. */
  function FirstIndex(s: string, c: char): (k: Option<nat>)
    ensures k.Some? ==> k.value < |s| && s[k.value] == c && c !in s[..k.value]
    ensures k.None? ==> c !in s
    decreases |s|
  {
    if |s| == 0 then None
    else if s[0] == c then Some(0)
    else
      match FirstIndex(s[1..], c)
      case None => None
      case Some(k) => assert s[..k + 1] == [s[0]] + s[1..][..k]; Some(k + 1)
  }

  lemma ConcatAssoc<T>(a: seq<T>, b: seq<T>, c: seq<T>)
    ensures a + (b + c) == (a + b) + c
  {
  }

  /** `a` is obtained from `b` by deleting some elements, keeping the order
      of the rest. */
  predicate IsSubsequence<T(==)>(a: seq<T>, b: seq<T>)
    decreases |b|
  {
    if |a| == 0 then true
    else if |b| == 0 then false
    else (a[0] == b[0] && IsSubsequence(a[1..], b[1..])) || IsSubsequence(a, b[1..])
  }

  /** Dropping the first element of `b` keeps `a` a subsequence. */
  lemma SubsequenceOfTail<T>(a: seq<T>, b: seq<T>)
    requires |b| > 0 && IsSubsequence(a, b[1..])
    ensures IsSubsequence(a, b)
  {
  }

  /** No element occurs twice. */
  predicate NoDuplicates<T(==)>(s: seq<T>) {
    forall i, j :: 0 <= i < j < |s| ==> s[i] != s[j]
  }
}

=== FILE: Calendar.dfy ===
/** Calendar dates and the result of `new Date(text)`: either an invalid
    date or an instant together with its local calendar day. */
module Calendar {

  /** Leap years of the proleptic Gregorian calendar that `Date` uses. */
  predicate IsLeapYear(year: int) {
    (year % 4 == 0 && year % 100 != 0) || year % 400 == 0
  }

  function DaysInMonth(year: int, month: int): int
    requires 1 <= month <= 12
  {
    if month == 2 then (if IsLeapYear(year) then 29 else 28)
    else if month == 4 || month == 6 || month == 9 || month == 11 then 30
    else 31
  }

  datatype CalendarDate = CalendarDate(year: int, month: int, day: int)

  predicate ValidDate(d: CalendarDate) {
    1 <= d.month <= 12 && 1 <= d.day <= DaysInMonth(d.year, d.month)
  }

  /** A calendar day that exists. */
  type LocalDate = d: CalendarDate | ValidDate(d) witness CalendarDate(1970, 1, 1)

  /** Milliseconds in a day. */
  const Day: int := 86400000

  /** The local day number of an instant on the local clock, counted from
      1970-01-01. */
  function DayIndex(t: int): int {
    t / Day
  }

  /** The number of the day `d` in the proleptic Gregorian calendar, counted
      from 1970-01-01. Years are taken to start on 1 March, so that the leap
      day ends a year; `mp` counts months from March. */
  function DaysFromCivil(d: CalendarDate): int {
    var y := if d.month <= 2 then d.year - 1 else d.year;
    var mp := (d.month + 9) % 12;
    MarchFirst(y) + (153 * mp + 2) / 5 + d.day - 1
  }

  /** The day number of 1 March of year `y`: 365 days a year plus the leap
      days of the Gregorian rule before it. */
  function MarchFirst(y: int): int {
    365 * y + y / 4 - y / 100 + y / 400 - 719468
  }

  /** What `new Date(text)` yields: an invalid date (for the empty string or
      text it cannot parse) or an instant in milliseconds on the local clock
      together with a calendar day. */
  datatype Timestamp = InvalidDate | At(millis: int, local: LocalDate)

  /** The calendar day of a valid timestamp is the local day its instant
      falls on. */
  predicate SameDay(t: Timestamp) {
    t.At? ==> DayIndex(t.millis) == DaysFromCivil(t.local)
  }

  /** A decoded date: the filter and the row each decode the same date text
      with `new Date`, and decoding the same text gives the same value, so
      the instant one reads and the calendar day the other shows agree. */
  type DecodedDate = t: Timestamp | SameDay(t) witness InvalidDate

  /** Day numbers start at 1970-01-01. */
  lemma DaysFromCivilEpoch()
    ensures DaysFromCivil(CalendarDate(1970, 1, 1)) == 0
    ensures DaysFromCivil(CalendarDate(1969, 12, 31)) == -1
  {
  }

  /** Within a month, the next day has the next day number. */
  lemma DaysFromCivilNextDay(d: LocalDate)
    requires d.day < DaysInMonth(d.year, d.month)
    ensures DaysFromCivil(d.(day := d.day + 1)) == DaysFromCivil(d) + 1
  {
  }

  /** Across a month end, the first of the next month follows the last day of
      the month. */
  lemma DaysFromCivilNextMonth(year: int, month: int)
    requires 1 <= month < 12
    ensures DaysFromCivil(CalendarDate(year, month + 1, 1)) ==
            DaysFromCivil(CalendarDate(year, month, DaysInMonth(year, month))) + 1
  {
    if month == 2 {
      MarchFollowsFebruary(year);
    }
  }

  /** 1 January follows 31 December. */
  lemma DaysFromCivilNextYear(year: int)
    ensures DaysFromCivil(CalendarDate(year + 1, 1, 1)) == DaysFromCivil(CalendarDate(year, 12, 31)) + 1
  {
  }

  /** 1 March starts a new year of the count: it follows 28 or 29 February. */
  lemma MarchFollowsFebruary(year: int)
    ensures DaysFromCivil(CalendarDate(year, 3, 1)) ==
            DaysFromCivil(CalendarDate(year, 2, DaysInMonth(year, 2))) + 1
  {
    YearLength(year - 1);
  }

  /** The year from 1 March of `y` to the end of February has 366 days when
      that February has a leap day, otherwise 365. */
  lemma YearLength(y: int)
    ensures MarchFirst(y + 1) == MarchFirst(y) + (if IsLeapYear(y + 1) then 366 else 365)
  {
    FloorStep4(y);
    FloorStep100(y);
    FloorStep400(y);
  }

  /** `y / k` grows by one exactly when `y + 1` is a multiple of `k`. */
  lemma FloorStep4(y: int)
    ensures (y + 1) / 4 == y / 4 + (if (y + 1) % 4 == 0 then 1 else 0)
  {
    var q := y / 4;
    assert y == 4 * q + y % 4;
    if y % 4 == 3 {
      assert y + 1 == 4 * (q + 1);
    } else {
      assert y + 1 == 4 * q + (y % 4 + 1);
    }
  }

  lemma FloorStep100(y: int)
    ensures (y + 1) / 100 == y / 100 + (if (y + 1) % 100 == 0 then 1 else 0)
  {
    var q := y / 100;
    assert y == 100 * q + y % 100;
    if y % 100 == 99 {
      assert y + 1 == 100 * (q + 1);
    } else {
      assert y + 1 == 100 * q + (y % 100 + 1);
    }
  }

  lemma FloorStep400(y: int)
    ensures (y + 1) / 400 == y / 400 + (if (y + 1) % 400 == 0 then 1 else 0)
  {
    var q := y / 400;
    assert y == 400 * q + y % 400;
    if y % 400 == 399 {
      assert y + 1 == 400 * (q + 1);
    } else {
      assert y + 1 == 400 * q + (y % 400 + 1);
    }
  }
}

=== FILE: CustomSelect.dfy ===
/** `CustomSelect`: a multi-select drop-down holding whether its option list
    is open and the values selected so far, reporting the selection to its
    parent through `setValues`. */
module CustomSelect {
  import opened Basics

  /** An entry of the `options` prop; `caption` is its `label` field. */
  datatype SelectOption = SelectOption(caption: string, value: string)

  datatype SelectState = SelectState(isOpen: bool, selected: seq<string>)

  /** The state on mount: closed, with a copy of the `values` prop. */
  function Init(values: seq<string>): SelectState {
    SelectState(false, values)
  }

  /** What the user can do: press the input, press the mouse somewhere
      (inside the component or not), or press one option of the open list. */
  datatype SelectEvent = PressInput | MouseDown(insideSelect: bool) | PressOption(value: string)

  /** `selected.filter((value) => value !== v)`. */
  function RemoveAll(xs: seq<string>, v: string): (r: seq<string>)
    ensures v !in r
    ensures forall x :: x != v ==> multiset(r)[x] == multiset(xs)[x]
    decreases |xs|
  {
    if |xs| == 0 then []
    else
      assert xs == [xs[0]] + xs[1..];
      (if xs[0] == v then [] else [xs[0]]) + RemoveAll(xs[1..], v)
  }

  /** The option click handler: remove a selected value, append another. */
  function ToggleValue(selected: seq<string>, v: string): seq<string> {
    if v in selected then RemoveAll(selected, v) else selected + [v]
  }

  /** Some option of the list carries the value `v`. */
  predicate Listed(options: seq<SelectOption>, v: string) {
    exists i :: 0 <= i < |options| && options[i].value == v
  }

  /** The checkbox of option value `v` is ticked. */
  predicate Checked(s: SelectState, v: string) {
    v in s.selected
  }

  /** One event. The input toggles the list only when there are options; the
      document listener, registered only while open, closes the list on a
      press outside the component; options are rendered, and so can be
      pressed, only while open. */
  function Step(s: SelectState, options: seq<SelectOption>, e: SelectEvent): SelectState {
    match e
    case PressInput => if |options| > 0 then s.(isOpen := !s.isOpen) else s
    case MouseDown(inside) => if s.isOpen && !inside then s.(isOpen := false) else s
    case PressOption(v) =>
      if s.isOpen && Listed(options, v) then s.(selected := ToggleValue(s.selected, v)) else s
  }

  /** The effect on `[isOpen, selectedOptions]`: it runs when either changed,
      and passes the selection up only when the list is closed and the
      selection is non-empty. */
  function ParentUpdate(before: SelectState, after: SelectState): Option<seq<string>> {
    if after != before && !after.isOpen && |after.selected| > 0 then Some(after.selected) else None
  }

  /** The state together with every selection passed to the parent so far. */
  datatype Trace = Trace(state: SelectState, pushes: seq<seq<string>>)

  /** Mounting: the effect runs once on the initial state. */
  function Mount(values: seq<string>): Trace {
    Trace(Init(values), if |values| > 0 then [values] else [])
  }

  function Run(t: Trace, options: seq<SelectOption>, events: seq<SelectEvent>): Trace
    decreases |events|
  {
    if |events| == 0 then t
    else
      var next := Step(t.state, options, events[0]);
      var pushed := match ParentUpdate(t.state, next) case Some(p) => [p] case None => [];
      Run(Trace(next, t.pushes + pushed), options, events[1..])
  }

  /** The selection shown in the input: the values joined with ", ". */
  function DisplayValue(selected: seq<string>): string {
    if |selected| > 0 then Join(selected, ", ") else ""
  }

  // ---------------------------------------------------------------------
  // Opening and closing

  /** Pressing the input flips `isOpen` exactly when there are options, and
      never touches the selection. */
  lemma PressInputToggles(s: SelectState, options: seq<SelectOption>)
    ensures Step(s, options, PressInput).isOpen == (if |options| > 0 then !s.isOpen else s.isOpen)
    ensures Step(s, options, PressInput).selected == s.selected
  {
  }

  /** A press outside closes the list and leaves the selection; a press
      inside changes nothing. */
  lemma MouseDownOutsideCloses(s: SelectState, options: seq<SelectOption>, inside: bool)
    ensures !inside ==> Step(s, options, MouseDown(inside)) == SelectState(false, s.selected)
    ensures inside ==> Step(s, options, MouseDown(inside)) == s
  {
  }

  // ---------------------------------------------------------------------
  // Toggling one option

  /** Pressing an unselected option appends it after the others. */
  lemma ToggleAppends(selected: seq<string>, v: string)
    requires v !in selected
    ensures ToggleValue(selected, v) == selected + [v]
    ensures ToggleValue(selected, v)[..|selected|] == selected
  {
  }

  /** Pressing a selected option removes every occurrence of it and keeps
      the rest, with their multiplicities, in order. */
  lemma ToggleRemoves(selected: seq<string>, v: string)
    requires v in selected
    ensures v !in ToggleValue(selected, v)
    ensures forall x :: x != v ==> multiset(ToggleValue(selected, v))[x] == multiset(selected)[x]
    ensures IsSubsequence(ToggleValue(selected, v), selected)
  {
    RemoveAllIsSubsequence(selected, v);
  }

  lemma {:induction false} RemoveAllIsSubsequence(xs: seq<string>, v: string)
    ensures IsSubsequence(RemoveAll(xs, v), xs)
    decreases |xs|
  {
    if |xs| > 0 {
      RemoveAllIsSubsequence(xs[1..], v);
      var rest := RemoveAll(xs[1..], v);
      if xs[0] == v {
        assert RemoveAll(xs, v) == rest;
        SubsequenceOfTail(rest, xs);
      } else {
        assert RemoveAll(xs, v) == [xs[0]] + rest;
        assert RemoveAll(xs, v)[1..] == rest;
      }
    }
  }

  lemma {:induction false} RemoveAllAbsent(xs: seq<string>, v: string)
    requires v !in xs
    ensures RemoveAll(xs, v) == xs
    decreases |xs|
  {
    if |xs| > 0 {
      RemoveAllAbsent(xs[1..], v);
      assert xs == [xs[0]] + xs[1..];
    }
  }

  /** Pressing the same unselected option twice restores the selection. */
  lemma ToggleTwiceRestores(selected: seq<string>, v: string)
    requires v !in selected
    ensures ToggleValue(ToggleValue(selected, v), v) == selected
  {
    RemoveAllAppended(selected, v);
  }

  lemma {:induction false} RemoveAllAppended(xs: seq<string>, v: string)
    requires v !in xs
    ensures RemoveAll(xs + [v], v) == xs
    decreases |xs|
  {
    if |xs| == 0 {
      assert xs + [v] == [v];
    } else {
      RemoveAllAppended(xs[1..], v);
      assert (xs + [v])[1..] == xs[1..] + [v];
      assert xs == [xs[0]] + xs[1..];
    }
  }

  /** A selection without duplicates keeps none after any press. */
  lemma ToggleKeepsNoDuplicates(selected: seq<string>, v: string)
    requires NoDuplicates(selected)
    ensures NoDuplicates(ToggleValue(selected, v))
  {
    if v in selected {
      RemoveAllNoDuplicates(selected, v);
    } else {
      var r := selected + [v];
      forall i, j | 0 <= i < j < |r|
        ensures r[i] != r[j]
      {
        if j == |selected| {
          assert r[i] in selected;
        }
      }
    }
  }

  lemma {:induction false} RemoveAllNoDuplicates(xs: seq<string>, v: string)
    requires NoDuplicates(xs)
    ensures NoDuplicates(RemoveAll(xs, v))
    decreases |xs|
  {
    if |xs| > 0 {
      RemoveAllNoDuplicates(xs[1..], v);
      var rest := RemoveAll(xs[1..], v);
      if xs[0] != v {
        var r := [xs[0]] + rest;
        assert RemoveAll(xs, v) == r;
        assert xs[0] !in xs[1..];
        assert multiset(rest)[xs[0]] == 0 by {
          assert multiset(xs[1..])[xs[0]] == 0;
        }
        forall i, j | 0 <= i < j < |r|
          ensures r[i] != r[j]
        {
          if i == 0 {
            assert r[j] in rest;
          } else {
            assert r[i] == rest[i - 1] && r[j] == rest[j - 1];
          }
        }
      }
    }
  }

  /** Every press of a listed option in the open list changes the
      selection, ticking an unticked box or unticking a ticked one. */
  lemma PressOptionFlipsCheck(s: SelectState, options: seq<SelectOption>, v: string)
    requires s.isOpen && Listed(options, v)
    ensures Checked(Step(s, options, PressOption(v)), v) == !Checked(s, v)
    ensures Step(s, options, PressOption(v)) != s
    ensures Step(s, options, PressOption(v)).isOpen
  {
  }

  // ---------------------------------------------------------------------
  // Keeping the parent in step

  /** Every selection handed to the parent is non-empty. */
  predicate PushesNonEmpty(t: Trace) {
    forall i :: 0 <= i < |t.pushes| ==> |t.pushes[i]| > 0
  }

  /** While the list is closed with something selected, the parent's latest
      value is that selection. */
  predicate InSync(t: Trace) {
    !t.state.isOpen && |t.state.selected| > 0 ==>
      |t.pushes| > 0 && t.pushes[|t.pushes| - 1] == t.state.selected
  }

  lemma {:induction false} RunKeepsSync(t: Trace, options: seq<SelectOption>, events: seq<SelectEvent>)
    requires InSync(t) && PushesNonEmpty(t)
    ensures InSync(Run(t, options, events)) && PushesNonEmpty(Run(t, options, events))
    ensures |Run(t, options, events).pushes| >= |t.pushes|
    ensures Run(t, options, events).pushes[..|t.pushes|] == t.pushes
    decreases |events|
  {
    if |events| > 0 {
      var next := Step(t.state, options, events[0]);
      var pushed := match ParentUpdate(t.state, next) case Some(p) => [p] case None => [];
      var t' := Trace(next, t.pushes + pushed);
      if ParentUpdate(t.state, next).None? {
        if !next.isOpen && |next.selected| > 0 {
          assert next == t.state || next.isOpen || |next.selected| == 0;
          NoChangeWhileClosed(t.state, options, events[0]);
        }
      }
      RunKeepsSync(t', options, events[1..]);
      var final := Run(t', options, events[1..]);
      assert final.pushes[..|t'.pushes|] == t'.pushes;
      assert final.pushes[..|t.pushes|] == t'.pushes[..|t.pushes|];
    }
  }

  /** One event passes at most one selection up, and does so exactly when it
      changes the state and leaves the list closed with something selected:
      the pushed value is then that selection. An event that leaves the
      state as it was passes nothing. */
  lemma StepPushesOnlyClosed(t: Trace, options: seq<SelectOption>, e: SelectEvent)
    ensures |Run(t, options, [e]).pushes| <= |t.pushes| + 1
    ensures |Run(t, options, [e]).pushes| > |t.pushes| <==>
              Run(t, options, [e]).state != t.state &&
              !Run(t, options, [e]).state.isOpen &&
              |Run(t, options, [e]).state.selected| > 0
    ensures Step(t.state, options, e) == t.state ==> Run(t, options, [e]).pushes == t.pushes
    ensures |Run(t, options, [e]).pushes| > |t.pushes| ==>
              !Run(t, options, [e]).state.isOpen &&
              Run(t, options, [e]).pushes == t.pushes + [Run(t, options, [e]).state.selected]
    ensures |Run(t, options, [e]).pushes| == |t.pushes| ==> Run(t, options, [e]).pushes == t.pushes
  {
    assert [e][1..] == [];
  }

  /** The events that leave an open list open: an option press and a press
      inside the component. */
  predicate KeepsOpen(e: SelectEvent) {
    e.PressOption? || (e.MouseDown? && e.insideSelect)
  }

  /** While the list stays open nothing is passed to the parent, however
      the selection changes: the effect passes it up only once the list
      closes. */
  lemma {:induction false} OpenListPushesNothing(t: Trace, options: seq<SelectOption>, events: seq<SelectEvent>)
    requires t.state.isOpen
    requires forall i :: 0 <= i < |events| ==> KeepsOpen(events[i])
    ensures Run(t, options, events).pushes == t.pushes
    ensures Run(t, options, events).state.isOpen
    decreases |events|
  {
    if |events| > 0 {
      var next := Step(t.state, options, events[0]);
      assert KeepsOpen(events[0]);
      assert next.isOpen;
      assert ParentUpdate(t.state, next).None?;
      assert t.pushes + [] == t.pushes;
      forall i | 0 <= i < |events[1..]|
        ensures KeepsOpen(events[1..][i])
      {
        assert events[1..][i] == events[i + 1];
      }
      OpenListPushesNothing(Trace(next, t.pushes), options, events[1..]);
    }
  }

  /** A closed list's selection can only change by opening the list first. */
  lemma NoChangeWhileClosed(s: SelectState, options: seq<SelectOption>, e: SelectEvent)
    requires !s.isOpen
    ensures Step(s, options, e).selected == s.selected
  {
  }

  /** From mount on, the parent never receives an empty selection, so
      deselecting everything never clears the parent's value; and whenever
      the list is closed with something selected, the parent holds exactly
      that selection. */
  lemma SessionKeepsParentInSync(values: seq<string>, options: seq<SelectOption>, events: seq<SelectEvent>)
    ensures PushesNonEmpty(Run(Mount(values), options, events))
    ensures InSync(Run(Mount(values), options, events))
  {
    RunKeepsSync(Mount(values), options, events);
  }

  // ---------------------------------------------------------------------
  // The displayed value

  /** Splits a displayed value at each ", ". A comma that is not followed
      by a space cannot come from the join, and the text is then kept whole
      from there on. */
  function SplitDisplay(s: string): seq<string>
    decreases |s|
  {
    match FirstIndex(s, ',')
    case None => [s]
    case Some(k) =>
      if k + 2 <= |s| && s[k + 1] == ' ' then [s[..k]] + SplitDisplay(s[k + 2..]) else [s]
  }

  predicate CommaFree(v: string) {
    ',' !in v
  }

  /** Nothing selected shows as the empty string; otherwise the shown text
      splits back into the selection, as long as no value contains a comma. */
  lemma DisplayValueRoundTrip(selected: seq<string>)
    requires forall i :: 0 <= i < |selected| ==> CommaFree(selected[i])
    ensures |selected| == 0 ==> DisplayValue(selected) == ""
    ensures |selected| > 0 ==> SplitDisplay(DisplayValue(selected)) == selected
  {
    if |selected| > 0 {
      JoinSplits(selected);
    }
  }

  lemma {:induction false} JoinSplits(xs: seq<string>)
    requires |xs| > 0
    requires forall i :: 0 <= i < |xs| ==> CommaFree(xs[i])
    ensures SplitDisplay(Join(xs, ", ")) == xs
    decreases |xs|
  {
    if |xs| == 1 {
      assert CommaFree(xs[0]);
    } else {
      var tail := Join(xs[1..], ", ");
      assert Join(xs, ", ") == xs[0] + ", " + tail;
      assert CommaFree(xs[0]);
      SplitDisplayStep(xs[0], tail);
      forall i | 0 <= i < |xs[1..]|
        ensures CommaFree(xs[1..][i])
      {
        assert xs[1..][i] == xs[i + 1];
      }
      JoinSplits(xs[1..]);
      assert xs == [xs[0]] + xs[1..];
    }
  }

  /** The first ", " after a comma-free value ends that value. */
  lemma SplitDisplayStep(head: string, tail: string)
    requires CommaFree(head)
    ensures SplitDisplay(head + ", " + tail) == [head] + SplitDisplay(tail)
  {
    var s := head + ", " + tail;
    assert s[|head|] == ',';
    assert s[..|head|] == head;
    assert FirstIndex(s, ',') == Some(|head|) by {
      assert ',' in s;
    }
    assert s[|head| + 2..] == tail;
  }
}

=== FILE: DateFormat.dfy ===
/** `formatDate`: a date rendered by `toLocaleDateString("en-US", {month:
    "short", day: "numeric", year: "numeric"})`, as "Jan 15, 2024". */
module DateFormat {
  import opened Basics
  import opened Decimal
  import opened Calendar

  /** The text `toLocaleDateString` gives for an invalid date. */
  const InvalidDateText: string := "Invalid Date"

  const MonthNames: seq<string> :=
    ["Jan", "Feb", "Mar", "Apr", "May", "Jun", "Jul", "Aug", "Sep", "Oct", "Nov", "Dec"]

  /** The short en-US name of a month. */
  function MonthAbbrev(month: int): (name: string)
    requires 1 <= month <= 12
    ensures |name| == 3
  {
    MonthNames[month - 1]
  }

  /** `formatDate`: short month name, unpadded day, a comma and the year. */
  function FormatDate(t: Timestamp): string {
    match t
    case InvalidDate => InvalidDateText
    case At(_, d) => MonthAbbrev(d.month) + " " + NatToString(d.day) + ", " + IntToString(d.year)
  }

  /** The month whose short name is `name`. */
  function MonthNumber(name: string): (m: Option<int>)
    ensures m.Some? ==> 1 <= m.value <= 12 && MonthAbbrev(m.value) == name
  {
    if name == "Jan" then Some(1) else if name == "Feb" then Some(2)
    else if name == "Mar" then Some(3) else if name == "Apr" then Some(4)
    else if name == "May" then Some(5) else if name == "Jun" then Some(6)
    else if name == "Jul" then Some(7) else if name == "Aug" then Some(8)
    else if name == "Sep" then Some(9) else if name == "Oct" then Some(10)
    else if name == "Nov" then Some(11) else if name == "Dec" then Some(12)
    else None
  }

  lemma MonthNumberOfAbbrev(month: int)
    requires 1 <= month <= 12
    ensures MonthNumber(MonthAbbrev(month)) == Some(month)
  {
  }

  /** Reads a `formatDate` text back into a calendar date; `None` for the
      invalid-date text and for anything else not of that shape. */
  function ReadDate(s: string): Option<CalendarDate> {
    if |s| < 4 || s[3] != ' ' then None
    else
      match MonthNumber(s[..3])
      case None => None
      case Some(month) =>
        var rest := s[4..];
        match FirstIndex(rest, ',')
        case None => None
        case Some(k) =>
          var after := rest[k + 1..];
          if |after| == 0 || after[0] != ' ' then None
          else
            match (ReadNat(rest[..k]), ReadInt(after[1..]))
            case (Some(day), Some(year)) =>
              if ValidDate(CalendarDate(year, month, day)) then Some(CalendarDate(year, month, day)) else None
            case _ => None
  }

  lemma FirstIndexAfterDigits(digits: string, tail: string)
    requires AllDigits(digits)
    ensures FirstIndex(digits + "," + tail, ',') == Some(|digits|)
  {
    var s := digits + "," + tail;
    assert s[|digits|] == ',';
    assert s[..|digits|] == digits;
    assert ',' in s;
  }

  /** Every valid date is recovered from its text, so no two days share a
      text and none is mistaken for the invalid-date text. */
  lemma ReadDateRoundTrip(millis: int, d: LocalDate)
    ensures ReadDate(FormatDate(At(millis, d))) == Some(d)
  {
    MonthNumberOfAbbrev(d.month);
    ReadNatRoundTrip(d.day);
    ReadIntRoundTrip(d.year);
    ReadDateParts(MonthAbbrev(d.month), NatToString(d.day), IntToString(d.year), d.month, d.day, d.year);
  }

  /** Reading a text assembled from a month name, a day numeral and a year. */
  lemma ReadDateParts(name: string, dayText: string, yearText: string, month: int, day: nat, year: int)
    requires |name| == 3 && MonthNumber(name) == Some(month)
    requires AllDigits(dayText) && ReadNat(dayText) == Some(day) && ReadInt(yearText) == Some(year)
    requires ValidDate(CalendarDate(year, month, day))
    ensures ReadDate(name + " " + dayText + ", " + yearText) == Some(CalendarDate(year, month, day))
  {
    var s := name + " " + dayText + ", " + yearText;
    var rest := dayText + "," + (" " + yearText);
    assert s == name + " " + rest;
    assert s[..3] == name;
    assert s[3] == ' ';
    assert s[4..] == rest;
    FirstIndexAfterDigits(dayText, " " + yearText);
    assert rest[..|dayText|] == dayText;
    assert rest[|dayText| + 1..] == " " + yearText;
    assert (" " + yearText)[1..] == yearText;
  }

  /** The invalid-date text reads as no date at all. */
  lemma ReadInvalidDate()
    ensures ReadDate(InvalidDateText) == None
  {
    assert InvalidDateText[3] == 'a';
  }

  /** The dates pinned by the unit tests. */
  lemma FormatDateExamples(millis: int)
    ensures FormatDate(At(millis, CalendarDate(2024, 1, 15))) == "Jan 15, 2024"
    ensures FormatDate(At(millis, CalendarDate(2024, 12, 25))) == "Dec 25, 2024"
    ensures FormatDate(At(millis, CalendarDate(2023, 6, 30))) == "Jun 30, 2023"
  {
    FormatJan15(millis);
    FormatDec25(millis);
    FormatJun30(millis);
  }

  lemma FormatJan15(millis: int)
    ensures FormatDate(At(millis, CalendarDate(2024, 1, 15))) == "Jan 15, 2024"
  {
  }

  lemma FormatDec25(millis: int)
    ensures FormatDate(At(millis, CalendarDate(2024, 12, 25))) == "Dec 25, 2024"
  {
  }

  lemma FormatJun30(millis: int)
    ensures FormatDate(At(millis, CalendarDate(2023, 6, 30))) == "Jun 30, 2023"
  {
  }
}

=== FILE: Decimal.dfy ===
/** Decimal numerals: how a JavaScript number with an integral value is
    rendered as text, and the reading back of such text. */
module Decimal {
  import opened Basics

  predicate IsDigit(c: char) {
    '0' <= c <= '9'
  }

  predicate AllDigits(s: string) {
    forall i :: 0 <= i < |s| ==> IsDigit(s[i])
  }

  function DigitChar(d: nat): (c: char)
    requires d < 10
    ensures IsDigit(c)
  {
    ('0' as int + d) as char
  }

  function DigitValue(c: char): (d: nat)
    requires IsDigit(c)
    ensures d < 10
  {
    c as int - '0' as int
  }

  function Pow10(k: nat): (p: nat)
    ensures p >= 1
  {
    if k == 0 then 1 else 10 * Pow10(k - 1)
  }

  /** The shortest decimal numeral of `n`: at least one digit, and a leading
      zero only for zero itself. */
  function NatToString(n: nat): (s: string)
    ensures |s| >= 1 && AllDigits(s)
    ensures s[0] == '0' <==> n == 0
    decreases n
  {
    if n < 10 then [DigitChar(n)] else NatToString(n / 10) + [DigitChar(n % 10)]
  }

  /** `n` written with exactly `width` digits, padded with leading zeros
      (the digits above `width` are dropped). */
  function PadDigits(n: nat, width: nat): (s: string)
    ensures |s| == width && AllDigits(s)
    decreases width
  {
    if width == 0 then "" else PadDigits(n / 10, width - 1) + [DigitChar(n % 10)]
  }

  /** The value of a string of digits, most significant first. */
  function DigitsValue(s: string): nat
    requires AllDigits(s)
    decreases |s|
  {
    if |s| == 0 then 0 else 10 * DigitsValue(s[..|s| - 1]) + DigitValue(s[|s| - 1])
  }

  lemma {:induction false} NatToStringValue(n: nat)
    ensures DigitsValue(NatToString(n)) == n
    decreases n
  {
    if n >= 10 {
      NatToStringValue(n / 10);
      var s := NatToString(n);
      assert s[..|s| - 1] == NatToString(n / 10);
    }
  }

  lemma {:induction false} PadDigitsValue(n: nat, width: nat)
    requires n < Pow10(width)
    ensures DigitsValue(PadDigits(n, width)) == n
    decreases width
  {
    if width > 0 {
      PadDigitsValue(n / 10, width - 1);
      var s := PadDigits(n, width);
      assert s[..|s| - 1] == PadDigits(n / 10, width - 1);
    }
  }

  /** A numeral of a number below 10^k has at most k digits. */
  lemma {:induction false} NatToStringLength(n: nat, k: nat)
    requires k >= 1 && n < Pow10(k)
    ensures |NatToString(n)| <= k
    decreases n
  {
    if n >= 10 {
      assert k >= 2;
      NatToStringLength(n / 10, k - 1);
    }
  }

  /** Appending `k` padded digits to the numeral of `q > 0` gives the
      numeral of `q * 10^k + r`. */
  lemma {:induction false} NatToStringAppend(q: nat, r: nat, k: nat)
    requires q >= 1 && r < Pow10(k)
    ensures NatToString(q * Pow10(k) + r) == NatToString(q) + PadDigits(r, k)
    decreases k
  {
    if k > 0 {
      var p := Pow10(k - 1);
      var x := q * p;
      var n := q * Pow10(k) + r;
      assert q * Pow10(k) == 10 * x by {
        assert Pow10(k) == 10 * p;
        MulAssoc(q, 10, p);
      }
      assert r / 10 < p by {
        assert r < 10 * p;
      }
      assert x >= 1 by {
        MulAtLeast(q, p);
      }
      DivModTen(x + r / 10, r % 10);
      assert n == 10 * (x + r / 10) + r % 10;
      NatToStringAppend(q, r / 10, k - 1);
    }
  }

  lemma MulAssoc(a: int, b: int, c: int)
    ensures a * (b * c) == b * (a * c)
  {
  }

  lemma MulAtLeast(a: nat, b: nat)
    requires a >= 1 && b >= 1
    ensures a * b >= 1
  {
  }

  lemma DivModTen(y: nat, d: nat)
    requires d < 10
    ensures (10 * y + d) / 10 == y && (10 * y + d) % 10 == d
  {
  }

  /** Reads a non-empty string of digits. */
  function ReadNat(s: string): Option<nat> {
    if |s| > 0 && AllDigits(s) then Some(DigitsValue(s)) else None
  }

  lemma ReadNatRoundTrip(n: nat)
    ensures ReadNat(NatToString(n)) == Some(n)
  {
    NatToStringValue(n);
  }

  /** A signed integer: a minus sign before the numeral of the magnitude. */
  function IntToString(i: int): string {
    if i < 0 then "-" + NatToString(-i) else NatToString(i)
  }

  function ReadInt(s: string): Option<int> {
    if |s| > 0 && s[0] == '-' then
      match ReadNat(s[1..])
      case Some(n) => Some(-(n as int))
      case None => None
    else ReadNat(s)
  }

  lemma ReadIntRoundTrip(i: int)
    ensures ReadInt(IntToString(i)) == Some(i)
  {
    if i < 0 {
      ReadNatRoundTrip(-i);
      assert IntToString(i)[1..] == NatToString(-i);
    } else {
      ReadNatRoundTrip(i);
    }
  }
}

=== FILE: Money.dfy ===
/** `formatMoney`: an amount rendered by the en-US USD currency formatter and
    then rewritten by four `String.prototype.replace` calls. Amounts are
    integer cents, so the formatter's rounding to two places is exact. */
module Money {
  import opened Basics
  import opened Decimal

  function Abs(x: int): nat {
    if x < 0 then -x else x
  }

  /** The integer part as en-US groups it: a comma before every block of
      three digits counted from the right. */
  function GroupThousands(n: nat): string
    decreases n
  {
    if n < 1000 then NatToString(n)
    else GroupThousands(n / 1000) + "," + PadDigits(n % 1000, 3)
  }

  /** What `Intl.NumberFormat("en-US", {style: "currency", currency: "USD"})`
      produces for an amount of `cents`: an optional minus sign, the dollar
      symbol, the grouped integer part and always two fraction digits. */
  function IntlUsd(cents: int): string {
    var a := Abs(cents);
    (if cents < 0 then "-" else "") + "$" + GroupThousands(a / 100) + "." + PadDigits(a % 100, 2)
  }

  /** `s.replace(pattern, replacement)` with a string pattern: only the first
      occurrence is replaced. */
  function ReplaceFirst(s: string, pattern: string, replacement: string): string
    requires |pattern| > 0
    decreases |s|
  {
    if |s| < |pattern| then s
    else if s[..|pattern|] == pattern then replacement + s[|pattern|..]
    else [s[0]] + ReplaceFirst(s[1..], pattern, replacement)
  }

  /** `formatMoney`, step for step. */
  function FormatMoney(cents: int): string {
    Rewrite(IntlUsd(cents))
  }

  /** The chain of `.replace` calls `formatMoney` applies to the Intl text. */
  function Rewrite(intl: string): string {
    var labelled := ReplaceFirst(intl, "$", "USD  ");
    var oneSpace := ReplaceFirst(labelled, " ", "");
    var trimmed := ReplaceFirst(oneSpace, ".00", "");
    ReplaceFirst(trimmed, "&nbsp;", "")
  }

  /** The shape the rewriting is meant to produce, stated directly: the sign,
      the label and one space, the grouped integer part and, only for an
      amount with a non-zero cents part, a point and two digits. */
  function SignText(cents: int): string {
    if cents < 0 then "-" else ""
  }

  function FractionText(f: nat): string {
    if f == 0 then "" else "." + PadDigits(f, 2)
  }

  function MoneyLayout(cents: int): string {
    SignText(cents) + "USD " + AmountText(Abs(cents))
  }

  /** The unsigned amount after the label. */
  function AmountText(a: nat): string {
    GroupThousands(a / 100) + FractionText(a % 100)
  }

  // ---------------------------------------------------------------------
  // Replacement of the first occurrence

  lemma {:induction false} ReplaceFirstSkip(a: string, b: string, pattern: string, replacement: string)
    requires |pattern| > 0 && pattern[0] !in a
    ensures ReplaceFirst(a + b, pattern, replacement) == a + ReplaceFirst(b, pattern, replacement)
    decreases |a|
  {
    if |a| > 0 {
      var s := a + b;
      if |s| < |pattern| {
        assert ReplaceFirst(b, pattern, replacement) == b;
      } else {
        assert s[..|pattern|][0] == a[0];
        assert s[1..] == a[1..] + b;
        ReplaceFirstSkip(a[1..], b, pattern, replacement);
      }
    } else {
      assert a + b == b;
    }
  }

  lemma ReplaceFirstAbsent(s: string, pattern: string, replacement: string)
    requires |pattern| > 0 && pattern[0] !in s
    ensures ReplaceFirst(s, pattern, replacement) == s
  {
    ReplaceFirstSkip(s, "", pattern, replacement);
    assert s + "" == s;
  }

  lemma ReplaceFirstHere(b: string, pattern: string, replacement: string)
    requires |pattern| > 0
    ensures ReplaceFirst(pattern + b, pattern, replacement) == replacement + b
  {
    assert (pattern + b)[..|pattern|] == pattern;
    assert (pattern + b)[|pattern|..] == b;
  }

  // ---------------------------------------------------------------------
  // Grouping

  /** The grouped integer part holds only digits and commas. */
  lemma {:induction false} GroupThousandsChars(n: nat)
    ensures forall i :: 0 <= i < |GroupThousands(n)| ==>
              IsDigit(GroupThousands(n)[i]) || GroupThousands(n)[i] == ','
    decreases n
  {
    if n >= 1000 {
      GroupThousandsChars(n / 1000);
    }
  }

  lemma GroupThousandsNoneOf(n: nat, c: char)
    requires c != ',' && !IsDigit(c)
    ensures c !in GroupThousands(n)
  {
    GroupThousandsChars(n);
  }

  /** Grouped in threes: a comma sits exactly at each position that is a
      positive multiple of four characters from the end, and every other
      character is a digit. */
  predicate CommasEveryThree(s: string) {
    forall i :: 0 <= i < |s| ==>
      (s[i] == ',' <==> (i > 0 && (|s| - i) % 4 == 0)) && (s[i] != ',' ==> IsDigit(s[i]))
  }

  lemma {:induction false} GroupThousandsShape(n: nat)
    ensures CommasEveryThree(GroupThousands(n))
    decreases n
  {
    if n < 1000 {
      NatToStringLength(n, 3);
    } else {
      GroupThousandsShape(n / 1000);
      GroupThousandsNonEmpty(n / 1000);
      ShapeBlock(GroupThousands(n / 1000), PadDigits(n % 1000, 3));
    }
  }

  /** A comma and a block of three digits after a well-grouped head. */
  lemma ShapeBlock(head: string, pad: string)
    requires CommasEveryThree(head) && |head| >= 1 && |pad| == 3 && AllDigits(pad)
    ensures CommasEveryThree(head + "," + pad)
  {
    var s := head + "," + pad;
    forall i | 0 <= i < |s|
      ensures (s[i] == ',' <==> (i > 0 && (|s| - i) % 4 == 0)) && (s[i] != ',' ==> IsDigit(s[i]))
    {
      if i < |head| {
        assert s[i] == head[i];
        assert (|s| - i) % 4 == (|head| - i) % 4;
      } else if i > |head| {
        assert s[i] == pad[i - |head| - 1];
        assert 1 <= |s| - i <= 3;
      }
    }
  }

  lemma GroupThousandsNonEmpty(n: nat)
    ensures |GroupThousands(n)| >= 1
  {
  }

  /** Deleting the commas from `s`. */
  function Ungroup(s: string): string
    decreases |s|
  {
    if |s| == 0 then "" else (if s[0] == ',' then "" else [s[0]]) + Ungroup(s[1..])
  }

  lemma {:induction false} UngroupConcat(a: string, b: string)
    ensures Ungroup(a + b) == Ungroup(a) + Ungroup(b)
    decreases |a|
  {
    if |a| > 0 {
      assert (a + b)[1..] == a[1..] + b;
      UngroupConcat(a[1..], b);
      ConcatAssoc(if a[0] == ',' then "" else [a[0]], Ungroup(a[1..]), Ungroup(b));
    } else {
      assert a + b == b;
    }
  }

  lemma {:induction false} UngroupDigits(s: string)
    requires AllDigits(s)
    ensures Ungroup(s) == s
    decreases |s|
  {
    if |s| > 0 {
      UngroupDigits(s[1..]);
    }
  }

  /** The grouped integer part is the plain numeral with commas inserted. */
  lemma {:induction false} GroupThousandsDigits(n: nat)
    ensures Ungroup(GroupThousands(n)) == NatToString(n)
    decreases n
  {
    if n < 1000 {
      UngroupDigits(NatToString(n));
    } else {
      var q := n / 1000;
      var r := n % 1000;
      assert Pow10(3) == 1000;
      assert q * Pow10(3) + r == n;
      GroupThousandsDigits(q);
      UngroupBlock(GroupThousands(q), PadDigits(r, 3));
      NatToStringAppend(q, r, 3);
    }
  }

  lemma UngroupBlock(head: string, pad: string)
    requires AllDigits(pad)
    ensures Ungroup(head + "," + pad) == Ungroup(head) + pad
  {
    var tail := "," + pad;
    assert head + "," + pad == head + tail;
    UngroupConcat(head, tail);
    assert tail[0] == ',' && tail[1..] == pad;
    assert Ungroup(tail) == Ungroup(pad);
    UngroupDigits(pad);
  }

  /** Reads an integer part grouped as `GroupThousands` writes it. */
  function ReadGrouped(s: string): Option<nat>
    decreases |s|
  {
    if 1 <= |s| <= 3 && AllDigits(s) then Some(DigitsValue(s))
    else if |s| >= 5 && s[|s| - 4] == ',' && AllDigits(s[|s| - 3..]) then
      match ReadGrouped(s[..|s| - 4])
      case Some(h) => Some(h * 1000 + DigitsValue(s[|s| - 3..]))
      case None => None
    else None
  }

  lemma {:induction false} ReadGroupedRoundTrip(n: nat)
    ensures ReadGrouped(GroupThousands(n)) == Some(n)
    decreases n
  {
    if n < 1000 {
      NatToStringLength(n, 3);
      NatToStringValue(n);
    } else {
      var head := GroupThousands(n / 1000);
      var pad := PadDigits(n % 1000, 3);
      assert GroupThousands(n) == head + "," + pad;
      ReadGroupedRoundTrip(n / 1000);
      PadDigitsValue(n % 1000, 3);
      ReadGroupedBlock(head, pad, n / 1000);
    }
  }

  /** One more block of three digits after a readable head. */
  lemma ReadGroupedBlock(head: string, pad: string, h: nat)
    requires ReadGrouped(head) == Some(h) && |pad| == 3 && AllDigits(pad)
    ensures ReadGrouped(head + "," + pad) == Some(h * 1000 + DigitsValue(pad))
  {
    var s := head + "," + pad;
    assert |head| >= 1;
    assert s[..|s| - 4] == head;
    assert s[|s| - 3..] == pad;
    assert !AllDigits(s) by {
      assert s[|s| - 4] == ',';
    }
  }

  // ---------------------------------------------------------------------
  // The rewriting pipeline

  /** The `"$"` rewrite: the symbol becomes the label and two spaces. */
  lemma LabelStep(sign: string, rest: string)
    requires sign == "" || sign == "-"
    ensures ReplaceFirst(sign + "$" + rest, "$", "USD  ") == sign + "USD  " + rest
  {
    assert sign + "$" + rest == sign + ("$" + rest);
    ReplaceFirstSkip(sign, "$" + rest, "$", "USD  ");
    ReplaceFirstHere(rest, "$", "USD  ");
  }

  /** The `" "` rewrite: the first of the two spaces goes. */
  lemma SpaceStep(sign: string, rest: string)
    requires sign == "" || sign == "-"
    ensures ReplaceFirst(sign + "USD  " + rest, " ", "") == sign + "USD " + rest
  {
    var p := sign + "USD";
    assert "USD  " == "USD" + "  " && "USD " == "USD" + " " && "  " == " " + " ";
    ConcatAssoc(sign, "USD", "  ");
    ConcatAssoc(sign, "USD", " ");
    ConcatAssoc(p, "  ", rest);
    ConcatAssoc(" ", " ", rest);
    ConcatAssoc(p, " ", rest);
    ReplaceFirstSkip(p, " " + (" " + rest), " ", "");
    ReplaceFirstHere(" " + rest, " ", "");
    assert "" + (" " + rest) == " " + rest;
  }

  /** The `".00"` rewrite: only an all-zero fraction is dropped. */
  lemma FractionStep(prefix: string, pad: string)
    requires '.' !in prefix && |pad| == 2
    ensures ReplaceFirst(prefix + "." + pad, ".00", "") ==
            prefix + (if pad == "00" then "" else "." + pad)
  {
    assert prefix + "." + pad == prefix + ("." + pad);
    ReplaceFirstSkip(prefix, "." + pad, ".00", "");
    if pad == "00" {
      ReplaceFirstHere("", ".00", "");
      assert "." + pad == ".00" + "";
    } else {
      assert ("." + pad)[..3] == "." + pad;
      assert ("." + pad)[1..] == pad;
      assert ReplaceFirst(pad, ".00", "") == pad;
    }
  }

  /** Two padded digits read "00" exactly for a zero cents part. */
  lemma PadTwoZero(f: nat)
    requires f < 100
    ensures PadDigits(f, 2) == "00" <==> f == 0
  {
    PadDigitsValue(f, 2);
    var pad := PadDigits(f, 2);
    if pad == "00" {
      assert DigitsValue(pad) == 10 * DigitsValue(pad[..1]) + 0;
      assert pad[..1] == "0";
    }
  }

  /** The rewriting of one Intl text, over any grouped integer part free
      of points and ampersands and any two fraction characters. */
  lemma RewriteLayout(sign: string, group: string, pad: string)
    requires sign == "" || sign == "-"
    requires '.' !in group && '&' !in group && |pad| == 2 && AllDigits(pad)
    ensures Rewrite(sign + "$" + group + "." + pad) ==
            sign + "USD " + group + (if pad == "00" then "" else "." + pad)
  {
    var rest := group + "." + pad;
    assert sign + "$" + group + "." + pad == sign + "$" + rest;
    LabelStep(sign, rest);
    SpaceStep(sign, rest);
    var prefix := sign + "USD " + group;
    assert sign + "USD " + rest == prefix + "." + pad;
    FractionStep(prefix, pad);
    var trimmed := prefix + (if pad == "00" then "" else "." + pad);
    assert '&' !in (if pad == "00" then "" else "." + pad);
    assert '&' !in prefix;
    ReplaceFirstAbsent(trimmed, "&nbsp;", "");
  }

  /** `formatMoney` produces the direct layout: the `"$"` becomes `"USD  "`,
      the first of those two spaces is removed, a `".00"` fraction is dropped
      and the `"&nbsp;"` rewrite never applies. */
  lemma FormatMoneyLayout(cents: int)
    ensures FormatMoney(cents) == MoneyLayout(cents)
  {
    var a := Abs(cents);
    var sign := SignText(cents);
    var group := GroupThousands(a / 100);
    var pad := PadDigits(a % 100, 2);
    GroupThousandsNoneOf(a / 100, '.');
    GroupThousandsNoneOf(a / 100, '&');
    assert IntlUsd(cents) == sign + "$" + group + "." + pad;
    RewriteLayout(sign, group, pad);
    PadTwoZero(a % 100);
    var fraction := FractionText(a % 100);
    assert fraction == (if pad == "00" then "" else "." + pad);
    ConcatAssoc(sign + "USD ", group, fraction);
  }

  // ---------------------------------------------------------------------
  // Reading the text back

  /** Splits the unsigned part after the label into the integer part and,
      when the third character from the end is a point, the two characters
      after it. */
  function SplitAmount(num: string): (string, string) {
    if |num| >= 3 && num[|num| - 3] == '.' then
      (num[..|num| - 3], num[|num| - 2..])
    else (num, "")
  }

  /** Reads the unsigned part after the label: a grouped integer part and
      either nothing or two cent digits. */
  function ReadAmount(num: string): Option<nat> {
    var parts := SplitAmount(num);
    if !AllDigits(parts.1) then None
    else
      match ReadGrouped(parts.0)
      case None => None
      case Some(w) => Some(w * 100 + DigitsValue(parts.1))
  }

  /** Splits a `formatMoney` text into its sign and the rest. */
  function SplitSign(s: string): (bool, string) {
    if |s| > 0 && s[0] == '-' then (true, s[1..]) else (false, s)
  }

  /** Reads a `formatMoney` text back into cents; `None` for text it cannot
      have produced in this shape. */
  function ReadMoney(s: string): Option<int> {
    var parts := SplitSign(s);
    match ReadLabelled(parts.1)
    case None => None
    case Some(v) => Some(if parts.0 then -(v as int) else v)
  }

  /** Reads the label, its space and the unsigned amount. */
  function ReadLabelled(rest: string): Option<nat> {
    if |rest| < 4 || rest[..4] != "USD " then None else ReadAmount(rest[4..])
  }

  lemma SplitAmountPoint(whole: string, pad: string)
    requires |pad| == 2
    ensures SplitAmount(whole + "." + pad) == (whole, pad)
  {
    var num := whole + "." + pad;
    assert num[|num| - 3] == '.';
    assert num[..|num| - 3] == whole;
    assert num[|num| - 2..] == pad;
  }

  lemma SplitAmountNoPoint(whole: string)
    requires '.' !in whole
    ensures SplitAmount(whole) == (whole, "")
  {
    if |whole| >= 3 {
      assert whole[|whole| - 3] in whole;
    }
  }

  lemma SplitSignOf(sign: string, rest: string)
    requires sign == "" || sign == "-"
    requires |rest| > 0 && rest[0] != '-'
    ensures SplitSign(sign + rest) == (sign == "-", rest)
  {
    if sign == "-" {
      assert (sign + rest)[1..] == rest;
    } else {
      assert sign + rest == rest;
    }
  }

  lemma ReadAmountRoundTrip(w: nat, f: nat)
    requires f < 100
    ensures ReadAmount(GroupThousands(w) + FractionText(f)) == Some(w * 100 + f)
  {
    ReadGroupedRoundTrip(w);
    GroupThousandsNoneOf(w, '.');
    ReadAmountLayout(GroupThousands(w), w, f);
  }

  lemma ReadAmountLayout(group: string, w: nat, f: nat)
    requires f < 100 && '.' !in group && ReadGrouped(group) == Some(w)
    ensures ReadAmount(group + FractionText(f)) == Some(w * 100 + f)
  {
    if f == 0 {
      ReadAmountPlain(group, w);
    } else {
      ReadAmountCents(group, w, f);
    }
  }

  lemma ReadAmountPlain(group: string, w: nat)
    requires '.' !in group && ReadGrouped(group) == Some(w)
    ensures ReadAmount(group + FractionText(0)) == Some(w * 100)
  {
    assert group + FractionText(0) == group;
    SplitAmountNoPoint(group);
  }

  lemma ReadAmountCents(group: string, w: nat, f: nat)
    requires 0 < f < 100 && ReadGrouped(group) == Some(w)
    ensures ReadAmount(group + FractionText(f)) == Some(w * 100 + f)
  {
    var pad := PadDigits(f, 2);
    assert FractionText(f) == "." + pad;
    PadDigitsValue(f, 2);
    ReadAmountPoint(group, pad, w);
  }

  lemma ReadAmountPoint(group: string, pad: string, w: nat)
    requires |pad| == 2 && AllDigits(pad) && ReadGrouped(group) == Some(w)
    ensures ReadAmount(group + ("." + pad)) == Some(w * 100 + DigitsValue(pad))
  {
    ConcatAssoc(group, ".", pad);
    SplitAmountPoint(group, pad);
  }

  lemma ReadMoneyLabelled(sign: string, num: string, v: nat)
    requires sign == "" || sign == "-"
    requires ReadAmount(num) == Some(v)
    ensures ReadMoney(sign + "USD " + num) == Some(if sign == "-" then -(v as int) else v)
  {
    var rest := "USD " + num;
    assert sign + "USD " + num == sign + rest;
    SplitSignOf(sign, rest);
    ReadLabelledOf(num);
  }

  lemma ReadLabelledOf(num: string)
    ensures ReadLabelled("USD " + num) == ReadAmount(num)
  {
    var rest := "USD " + num;
    assert rest[..4] == "USD " && rest[4..] == num;
  }

  /** Every amount is recovered from its text, so no two amounts share one. */
  lemma ReadMoneyRoundTrip(cents: int)
    ensures ReadMoney(FormatMoney(cents)) == Some(cents)
  {
    FormatMoneyLayout(cents);
    MoneyLayoutReads(cents);
  }

  lemma MoneyLayoutReads(cents: int)
    ensures ReadMoney(MoneyLayout(cents)) == Some(cents)
  {
    var a := Abs(cents);
    ReadAmountOfAbs(a);
    ReadMoneyLabelled(SignText(cents), AmountText(a), a);
    SignedAbs(cents);
  }

  lemma ReadAmountOfAbs(a: nat)
    ensures ReadAmount(AmountText(a)) == Some(a)
  {
    var w := a / 100;
    var f := a % 100;
    assert w * 100 + f == a;
    ReadAmountRoundTrip(w, f);
  }

  lemma SignedAbs(cents: int)
    ensures (if SignText(cents) == "-" then -(Abs(cents) as int) else Abs(cents)) == cents
  {
  }

  // ---------------------------------------------------------------------
  // Observable properties

  /** The sign comes before the label, never between label and digits. */
  lemma FormatMoneySign(cents: int)
    ensures cents < 0 ==> |FormatMoney(cents)| >= 5 && FormatMoney(cents)[..5] == "-USD "
    ensures cents >= 0 ==> |FormatMoney(cents)| >= 4 && FormatMoney(cents)[..4] == "USD "
  {
    FormatMoneyLayout(cents);
    LayoutSign(cents, FormatMoney(cents));
  }

  lemma LayoutSign(cents: int, s: string)
    requires s == MoneyLayout(cents)
    ensures cents < 0 ==> |s| >= 5 && s[..5] == "-USD "
    ensures cents >= 0 ==> |s| >= 4 && s[..4] == "USD "
  {
    var rest := GroupThousands(Abs(cents) / 100) + FractionText(Abs(cents) % 100);
    assert s == SignText(cents) + "USD " + rest;
  }

  /** There is exactly one space, and it follows the label. */
  lemma FormatMoneyOneSpace(cents: int)
    ensures multiset(FormatMoney(cents))[' '] == 1
    ensures |SignText(cents)| + 3 < |FormatMoney(cents)| && FormatMoney(cents)[|SignText(cents)| + 3] == ' '
  {
    FormatMoneyLayout(cents);
    LayoutOneSpace(cents, FormatMoney(cents));
  }

  lemma LayoutOneSpace(cents: int, s: string)
    requires s == MoneyLayout(cents)
    ensures multiset(s)[' '] == 1
    ensures |SignText(cents)| + 3 < |s| && s[|SignText(cents)| + 3] == ' '
  {
    var a := Abs(cents);
    GroupThousandsNoneOf(a / 100, ' ');
    assert ' ' !in FractionText(a % 100);
    var sign := SignText(cents);
    var group := GroupThousands(a / 100);
    var frac := FractionText(a % 100);
    assert s == sign + "USD " + group + frac;
    assert multiset(s) == multiset(sign) + multiset("USD ") + multiset(group) + multiset(frac);
  }

  /** A whole amount has no fractional part at all; any other amount ends
      with a point and exactly two digits holding its cents. */
  lemma FormatMoneyFraction(cents: int)
    ensures '.' in FormatMoney(cents) <==> cents % 100 != 0
    ensures cents % 100 != 0 ==>
      var s := FormatMoney(cents);
      |s| >= 3 && s[|s| - 3] == '.' && AllDigits(s[|s| - 2..]) &&
      DigitsValue(s[|s| - 2..]) == Abs(cents) % 100
  {
    FormatMoneyLayout(cents);
    LayoutFraction(cents, FormatMoney(cents));
  }

  lemma LayoutFraction(cents: int, s: string)
    requires s == MoneyLayout(cents)
    ensures '.' in s <==> cents % 100 != 0
    ensures cents % 100 != 0 ==>
      |s| >= 3 && s[|s| - 3] == '.' && AllDigits(s[|s| - 2..]) &&
      DigitsValue(s[|s| - 2..]) == Abs(cents) % 100
  {
    var a := Abs(cents);
    var head := SignText(cents) + "USD ";
    var group := GroupThousands(a / 100);
    var fraction := FractionText(a % 100);
    ConcatAssoc(head, group, fraction);
    AbsCents(cents);
    if a % 100 != 0 {
      var pad := PadDigits(a % 100, 2);
      assert fraction == "." + pad;
      PointTail(head + group, pad);
      PadDigitsValue(a % 100, 2);
    } else {
      GroupThousandsNoneOf(a / 100, '.');
      assert '.' !in head;
      assert s == head + group;
    }
  }

  /** A whole amount of dollars, negative or not. */
  lemma AbsCents(cents: int)
    ensures cents % 100 == 0 <==> Abs(cents) % 100 == 0
  {
    if cents < 0 && cents % 100 == 0 {
      assert Abs(cents) == (-(cents / 100)) * 100;
    }
  }

  /** The last three characters of a text ending in a point and two more. */
  lemma PointTail(prefix: string, pad: string)
    requires |pad| == 2
    ensures var s := prefix + ("." + pad);
      |s| >= 3 && s[|s| - 3] == '.' && s[|s| - 2..] == pad
  {
  }

  /** The integer part after the label is the grouped numeral of the whole
      dollars. */
  lemma FormatMoneyWhole(cents: int)
    ensures var s := FormatMoney(cents);
      var start := |SignText(cents)| + 4;
      var g := GroupThousands(Abs(cents) / 100);
      start + |g| <= |s| && s[start..start + |g|] == g
  {
    FormatMoneyLayout(cents);
    LayoutWhole(cents, FormatMoney(cents));
  }

  lemma LayoutWhole(cents: int, s: string)
    requires s == MoneyLayout(cents)
    ensures var start := |SignText(cents)| + 4;
      var g := GroupThousands(Abs(cents) / 100);
      start + |g| <= |s| && s[start..start + |g|] == g
  {
    var head := SignText(cents) + "USD ";
    var g := GroupThousands(Abs(cents) / 100);
    assert s == head + g + FractionText(Abs(cents) % 100);
  }

  /** The amounts the unit tests pin, in cents, with their expected text. */
  lemma FormatMoneyThousand()
    ensures FormatMoney(100000) == "USD 1,000"
  {
    var c := 100000;
    var w := Abs(c) / 100;
    var f := Abs(c) % 100;
    assert w == 1000 && f == 0;
    GroupThousandValue(w);
    FormatMoneyOf(c, "", "1,000", "");
    VectorTexts();
  }

  lemma FormatMoneyCents()
    ensures FormatMoney(123456) == "USD 1,234.56"
  {
    var c := 123456;
    var w := Abs(c) / 100;
    var f := Abs(c) % 100;
    assert w == 1234 && f == 56;
    GroupOneBlockValue(w);
    FractionValue(56, "56");
    FormatMoneyOf(c, "", "1,234", ".56");
    VectorTexts();
  }

  lemma FormatMoneyMillion()
    ensures FormatMoney(100000000) == "USD 1,000,000"
  {
    var c := 100000000;
    var w := Abs(c) / 100;
    var f := Abs(c) % 100;
    assert w == 1000000 && f == 0;
    GroupMillionValue(w);
    FormatMoneyOf(c, "", "1,000,000", "");
    VectorTexts();
  }

  lemma FormatMoneyZero()
    ensures FormatMoney(0) == "USD 0"
  {
    var c := 0;
    var w := Abs(c) / 100;
    var f := Abs(c) % 100;
    assert w == 0 && f == 0;
    SmallNumeral(0);
    FormatMoneyOf(c, "", "0", "");
    VectorTexts();
  }

  lemma FormatMoneyNegative()
    ensures FormatMoney(-100000) == "-USD 1,000"
  {
    var c := -100000;
    var w := Abs(c) / 100;
    var f := Abs(c) % 100;
    assert w == 1000 && f == 0;
    GroupThousandValue(w);
    FormatMoneyOf(c, "-", "1,000", "");
    VectorTexts();
  }

  lemma FormatMoneyHundred()
    ensures FormatMoney(10000) == "USD 100"
  {
    var c := 10000;
    var w := Abs(c) / 100;
    var f := Abs(c) % 100;
    assert w == 100 && f == 0;
    SmallNumeral(100);
    FormatMoneyOf(c, "", "100", "");
    VectorTexts();
  }

  lemma FormatMoneyTrailingZero()
    ensures FormatMoney(123450) == "USD 1,234.50"
  {
    var c := 123450;
    var w := Abs(c) / 100;
    var f := Abs(c) % 100;
    assert w == 1234 && f == 50;
    GroupOneBlockValue(w);
    FractionValue(50, "50");
    FormatMoneyOf(c, "", "1,234", ".50");
    VectorTexts();
  }

  lemma FormatMoneyUnderThousand()
    ensures FormatMoney(9999) == "USD 99.99"
  {
    var c := 9999;
    var w := Abs(c) / 100;
    var f := Abs(c) % 100;
    assert w == 99 && f == 99;
    SmallNumeral(99);
    FractionValue(99, "99");
    FormatMoneyOf(c, "", "99", ".99");
    VectorTexts();
  }

  lemma FormatMoneyLarge()
    ensures FormatMoney(123456789) == "USD 1,234,567.89"
  {
    var c := 123456789;
    var w := Abs(c) / 100;
    var f := Abs(c) % 100;
    assert w == 1234567 && f == 89;
    GroupLargeValue(w);
    FractionValue(89, "89");
    FormatMoneyOf(c, "", "1,234,567", ".89");
    VectorTexts();
  }

  /** The expected texts, assembled from their sign, integer and cents parts.
      Each test-vector lemma calls this rather than asserting its own
      equality: a literal concatenation is cheap to check on its own but
      costly in the context of a `FormatMoney` unfolding. */
  lemma VectorTexts()
    ensures "" + "USD " + "1,000" + "" == "USD 1,000"
    ensures "" + "USD " + "1,234" + ".56" == "USD 1,234.56"
    ensures "" + "USD " + "1,000,000" + "" == "USD 1,000,000"
    ensures "" + "USD " + "0" + "" == "USD 0"
    ensures "-" + "USD " + "1,000" + "" == "-USD 1,000"
    ensures "" + "USD " + "100" + "" == "USD 100"
    ensures "" + "USD " + "1,234" + ".50" == "USD 1,234.50"
    ensures "" + "USD " + "99" + ".99" == "USD 99.99"
    ensures "" + "USD " + "1,234,567" + ".89" == "USD 1,234,567.89"
  {
  }

  /** The text once its sign, its integer part and its cents part are known. */
  lemma FormatMoneyOf(c: int, sign: string, group: string, fraction: string)
    requires SignText(c) == sign
    requires GroupThousands(Abs(c) / 100) == group && FractionText(Abs(c) % 100) == fraction
    ensures FormatMoney(c) == sign + "USD " + group + fraction
  {
    FormatMoneyLayout(c);
  }

  lemma GroupThousandValue(w: nat)
    requires w == 1000
    ensures GroupThousands(w) == "1,000"
  {
    GroupedValue(1, 0, "1", "000");
  }

  lemma GroupOneBlockValue(w: nat)
    requires w == 1234
    ensures GroupThousands(w) == "1,234"
  {
    GroupedValue(1, 234, "1", "234");
  }

  lemma GroupMillionValue(w: nat)
    requires w == 1000000
    ensures GroupThousands(w) == "1,000,000"
  {
    GroupThousandValue(1000);
    GroupedValue(1000, 0, "1,000", "000");
  }

  lemma GroupLargeValue(w: nat)
    requires w == 1234567
    ensures GroupThousands(w) == "1,234,567"
  {
    GroupOneBlockValue(1234);
    GroupedValue(1234, 567, "1,234", "567");
  }

  /** One grouping step once the head's text and the block's digits are known. */
  lemma GroupedValue(q: nat, r: nat, head: string, block: string)
    requires 1 <= q && r < 1000
    requires (q < 1000 ==> SmallText(q) == head) && (q >= 1000 ==> GroupThousands(q) == head)
    requires block == [DigitChar(r / 100 % 10), DigitChar(r / 10 % 10), DigitChar(r % 10)]
    ensures GroupThousands(q * 1000 + r) == head + "," + block
  {
    var n := q * 1000 + r;
    assert n / 1000 == q && n % 1000 == r;
    PadThree(r);
    if q < 1000 {
      SmallNumeral(q);
    }
  }

  /** The cents part once its two digits are known. */
  lemma FractionValue(f: nat, pad: string)
    requires 0 < f < 100
    requires pad == [DigitChar(f / 10), DigitChar(f % 10)]
    ensures FractionText(f) == "." + pad
  {
    var hi := f / 10;
    assert hi < 10 && hi % 10 == hi && hi / 10 == 0;
    assert PadDigits(hi, 1) == PadDigits(0, 0) + [DigitChar(hi)];
    assert PadDigits(f, 2) == PadDigits(hi, 1) + [DigitChar(f % 10)];
  }

  /** The numeral of a number below a thousand, digit by digit. */
  function SmallText(n: nat): string
    requires n < 1000
  {
    if n < 10 then [DigitChar(n)]
    else if n < 100 then [DigitChar(n / 10), DigitChar(n % 10)]
    else [DigitChar(n / 100), DigitChar(n / 10 % 10), DigitChar(n % 10)]
  }

  lemma SmallNumeral(n: nat)
    requires n < 1000
    ensures GroupThousands(n) == NatToString(n) == SmallText(n)
  {
    if n >= 100 {
      assert n / 10 / 10 == n / 100 && n / 10 % 10 < 10;
    }
  }

  lemma PadThree(n: nat)
    ensures PadDigits(n, 3) == [DigitChar(n / 100 % 10), DigitChar(n / 10 % 10), DigitChar(n % 10)]
  {
    assert n / 10 / 10 == n / 100;
    assert PadDigits(n / 100, 1) == [DigitChar(n / 100 % 10)];
  }

}

=== FILE: TransactionFilter.dfy ===
/** The visible transaction list: the transactions kept by the committed
    filter, in their original order. */
module TransactionFilter {
  import opened Basics
  import opened Calendar
  import opened Types

  /** `setHours(0, 0, 0, 0)`: the first millisecond of the local day. */
  function StartOfDay(t: int): int {
    t - t % Day
  }

  /** `setHours(23, 59, 59, 999)`: the last millisecond of the local day. */
  function EndOfDay(t: int): int {
    StartOfDay(t) + Day - 1
  }

  /** The date range has both bounds. */
  predicate HasCompleteRange(f: Filters) {
    f.dateRange.Some? && f.dateRange.value.startDate.Some? && f.dateRange.value.endDate.Some?
  }

  /** A list filter is present and non-empty. */
  predicate Selects(list: Option<seq<string>>) {
    list.Some? && |list.value| > 0
  }

  /** The predicate `filteredTransactions` applies to each transaction: the
      first dimension that is set decides alone. */
  predicate Keep(t: Transaction, f: Filters) {
    if HasCompleteRange(f) then
      var lo := StartOfDay(f.dateRange.value.startDate.value);
      var hi := EndOfDay(f.dateRange.value.endDate.value);
      t.date.At? && lo <= t.date.millis && t.date.millis <= hi
    else if Selects(f.transactionType) then
      Lower(t.kind) in LowerAll(f.transactionType.value)
    else if Selects(f.transactionStatus) then
      Lower(t.status) in LowerAll(f.transactionStatus.value)
    else
      true
  }

  /** `transactions.filter(...)`. */
  function Visible(ts: seq<Transaction>, f: Filters): seq<Transaction>
    decreases |ts|
  {
    if |ts| == 0 then []
    else (if Keep(ts[0], f) then [ts[0]] else []) + Visible(ts[1..], f)
  }

  // ---------------------------------------------------------------------
  // Day arithmetic

  lemma DayBounds(t: int)
    ensures StartOfDay(t) <= t <= EndOfDay(t)
    ensures StartOfDay(t) == Day * DayIndex(t)
  {
  }

  /** `endDate.setHours(23, 59, 59, 999)` changes the committed filter's end
      bound in place; doing so again changes nothing, so filtering a second
      time with the mutated bound keeps the same transactions. */
  lemma EndOfDayIdempotent(t: int)
    ensures EndOfDay(EndOfDay(t)) == EndOfDay(t)
    ensures DayIndex(EndOfDay(t)) == DayIndex(t)
  {
    var q := t / Day;
    assert t == Day * q + t % Day;
    assert EndOfDay(t) == Day * q + (Day - 1);
    assert EndOfDay(t) / Day == q && EndOfDay(t) % Day == Day - 1;
  }

  /** The range test compares calendar days: an instant lies in
      [start-of-day(a), end-of-day(b)] iff its day lies between the days of
      `a` and `b`. */
  lemma RangeByDay(a: int, b: int, t: int)
    ensures (StartOfDay(a) <= t && t <= EndOfDay(b)) <==> (DayIndex(a) <= DayIndex(t) <= DayIndex(b))
  {
    var qa, qb, qt := a / Day, b / Day, t / Day;
    assert a == Day * qa + a % Day;
    assert b == Day * qb + b % Day;
    assert t == Day * qt + t % Day;
    assert StartOfDay(a) == Day * qa;
    assert EndOfDay(b) == Day * qb + Day - 1;
    if qa <= qt {
      assert Day * qa <= Day * qt;
    } else {
      assert Day * qa >= Day * (qt + 1);
    }
    if qt <= qb {
      assert Day * qt <= Day * qb;
    } else {
      assert Day * qt >= Day * (qb + 1);
    }
  }

  // ---------------------------------------------------------------------
  // The precedence of the dimensions

  /** With a complete date range a transaction is kept iff its date is valid
      and falls between the start of the first day and the end of the last
      day, both inclusive; equivalently, iff its day is between the two. */
  lemma DateRangeDecides(t: Transaction, f: Filters)
    requires HasCompleteRange(f)
    ensures var lo := StartOfDay(f.dateRange.value.startDate.value);
            var hi := EndOfDay(f.dateRange.value.endDate.value);
            Keep(t, f) <==> t.date.At? && lo <= t.date.millis <= hi
    ensures Keep(t, f) <==>
            t.date.At? &&
            DayIndex(f.dateRange.value.startDate.value) <= DayIndex(t.date.millis) <= DayIndex(f.dateRange.value.endDate.value)
  {
    if t.date.At? {
      RangeByDay(f.dateRange.value.startDate.value, f.dateRange.value.endDate.value, t.date.millis);
    }
  }

  /** The same decision read off the calendar day that the row's date text
      shows: a transaction is kept iff its day lies between the day of the
      start bound and the day of the end bound. */
  lemma DateRangeByCalendarDay(t: Transaction, f: Filters)
    requires HasCompleteRange(f)
    ensures Keep(t, f) <==>
            t.date.At? &&
            DayIndex(f.dateRange.value.startDate.value) <= DaysFromCivil(t.date.local) <= DayIndex(f.dateRange.value.endDate.value)
  {
    DateRangeDecides(t, f);
  }

  /** With a complete date range the type and status lists are never read. */
  lemma DateRangeIgnoresLists(t: Transaction, f: Filters, types: Option<seq<string>>, statuses: Option<seq<string>>)
    requires HasCompleteRange(f)
    ensures Keep(t, f) == Keep(t, f.(transactionType := types, transactionStatus := statuses))
  {
  }

  /** A date range missing either bound is treated as no date range. */
  lemma IncompleteRangeIgnored(t: Transaction, f: Filters)
    requires !HasCompleteRange(f)
    ensures Keep(t, f) == Keep(t, f.(dateRange := None))
  {
  }

  /** Without a complete date range, a non-empty type list decides: kept iff
      some listed type equals the transaction's type ignoring case; the
      status list is not read. */
  lemma TypeListDecides(t: Transaction, f: Filters, statuses: Option<seq<string>>)
    requires !HasCompleteRange(f) && Selects(f.transactionType)
    ensures Keep(t, f) <==> exists i :: 0 <= i < |f.transactionType.value| &&
                              Lower(f.transactionType.value[i]) == Lower(t.kind)
    ensures Keep(t, f) == Keep(t, f.(transactionStatus := statuses))
  {
    LowerAllContains(f.transactionType.value, Lower(t.kind));
  }

  /** With only a non-empty status list, kept iff some listed status equals
      the transaction's status ignoring case. */
  lemma StatusListDecides(t: Transaction, f: Filters)
    requires !HasCompleteRange(f) && !Selects(f.transactionType) && Selects(f.transactionStatus)
    ensures Keep(t, f) <==> exists i :: 0 <= i < |f.transactionStatus.value| &&
                              Lower(f.transactionStatus.value[i]) == Lower(t.status)
  {
    LowerAllContains(f.transactionStatus.value, Lower(t.status));
  }

  /** With nothing set, everything is kept. Empty lists count as unset. */
  lemma NothingSetKeepsAll(t: Transaction, f: Filters)
    requires !HasCompleteRange(f) && !Selects(f.transactionType) && !Selects(f.transactionStatus)
    ensures Keep(t, f)
  {
  }

  /** Only the lower-cased type and status and the date are consulted. */
  lemma KeepIgnoresCase(t: Transaction, u: Transaction, f: Filters)
    requires Lower(t.kind) == Lower(u.kind) && Lower(t.status) == Lower(u.status) && t.date == u.date
    ensures Keep(t, f) == Keep(u, f)
  {
  }

  // ---------------------------------------------------------------------
  // The visible list

  /** The visible list holds exactly the kept transactions of the input. */
  lemma {:induction false} VisibleMembers(ts: seq<Transaction>, f: Filters, t: Transaction)
    ensures t in Visible(ts, f) <==> t in ts && Keep(t, f)
    decreases |ts|
  {
    if |ts| > 0 {
      VisibleMembers(ts[1..], f, t);
      assert ts == [ts[0]] + ts[1..];
    }
  }

  /** The visible list keeps the input's order. */
  lemma {:induction false} VisibleIsSubsequence(ts: seq<Transaction>, f: Filters)
    ensures IsSubsequence(Visible(ts, f), ts)
    decreases |ts|
  {
    if |ts| > 0 {
      VisibleIsSubsequence(ts[1..], f);
      var rest := Visible(ts[1..], f);
      if Keep(ts[0], f) {
        assert Visible(ts, f) == [ts[0]] + rest;
        assert Visible(ts, f)[1..] == rest;
      } else {
        assert Visible(ts, f) == rest;
        SubsequenceOfTail(rest, ts);
      }
    }
  }

  /** Filtering the visible list again with the same filter changes nothing. */
  lemma VisibleIdempotent(ts: seq<Transaction>, f: Filters)
    ensures Visible(Visible(ts, f), f) == Visible(ts, f)
  {
    var v := Visible(ts, f);
    forall i | 0 <= i < |v|
      ensures Keep(v[i], f)
    {
      VisibleMembers(ts, f, v[i]);
    }
    VisibleAllKept(v, f);
  }

  /** A list whose every transaction is kept is shown unchanged. */
  lemma {:induction false} VisibleAllKept(ts: seq<Transaction>, f: Filters)
    requires forall i :: 0 <= i < |ts| ==> Keep(ts[i], f)
    ensures Visible(ts, f) == ts
    decreases |ts|
  {
    if |ts| > 0 {
      VisibleAllKept(ts[1..], f);
    }
  }

  /** With no filter fields set, or after clearing, the visible list is the
      whole list. */
  lemma NoFiltersShowsAll(ts: seq<Transaction>)
    ensures Visible(ts, NoFilters) == ts
  {
    VisibleAllKept(ts, NoFilters);
  }

  // ---------------------------------------------------------------------
  // The scenario of two transactions, a deposit on 2024-01-15 and a
  // withdrawal on 2024-01-14 (midnight, local clock)

  const Jan14: int := 1705190400000
  const Jan15: int := 1705276800000

  const ScenarioDeposit: Transaction :=
    Transaction(100000, At(Jan15, CalendarDate(2024, 1, 15)), None, "ref-123", "successful", "deposit")

  const ScenarioWithdrawal: Transaction :=
    Transaction(50000, At(Jan14, CalendarDate(2024, 1, 14)), None, "ref-456", "pending", "withdrawal")

  /** The scenario's instants fall on the days they are paired with, and an
      instant of 2024-01-14 paired with 2024-01-15 is no decoded date. */
  lemma ScenarioDaysAgree()
    ensures DayIndex(Jan14) == DaysFromCivil(CalendarDate(2024, 1, 14))
    ensures DayIndex(Jan15) == DaysFromCivil(CalendarDate(2024, 1, 15))
    ensures !SameDay(At(Jan14, CalendarDate(2024, 1, 15)))
  {
  }

  lemma VisiblePair(a: Transaction, b: Transaction, f: Filters)
    ensures Visible([a, b], f) == (if Keep(a, f) then [a] else []) + (if Keep(b, f) then [b] else [])
  {
    assert [a, b][1..] == [b];
    assert [b][1..] == [];
    assert Visible([b], f) == (if Keep(b, f) then [b] else []) + Visible([], f);
    assert Visible([a, b], f) == (if Keep(a, f) then [a] else []) + Visible([b], f);
  }

  /** A type filter for withdrawals leaves just the withdrawal. */
  lemma ScenarioTypeFilter()
    ensures Visible([ScenarioDeposit, ScenarioWithdrawal], Filters(None, Some(["withdrawal"]), None))
            == [ScenarioWithdrawal]
  {
    var f := Filters(None, Some(["withdrawal"]), None);
    TypeListDecides(ScenarioDeposit, f, None);
    TypeListDecides(ScenarioWithdrawal, f, None);
    assert Lower("withdrawal") != Lower("deposit") by {
      assert Lower("withdrawal")[0] == 'w' && Lower("deposit")[0] == 'd';
    }
    assert !Keep(ScenarioDeposit, f);
    assert Keep(ScenarioWithdrawal, f);
    VisiblePair(ScenarioDeposit, ScenarioWithdrawal, f);
  }

  /** A one-day range on 2024-01-14 leaves just the withdrawal, even with a
      type filter for deposits also set. */
  lemma ScenarioDateRangeWins()
    ensures Visible([ScenarioDeposit, ScenarioWithdrawal],
                    Filters(Some(DateRange(Some(Jan14), Some(Jan14))), Some(["deposit"]), None))
            == [ScenarioWithdrawal]
  {
    var f := Filters(Some(DateRange(Some(Jan14), Some(Jan14))), Some(["deposit"]), None);
    assert Jan14 % Day == 0;
    assert !Keep(ScenarioDeposit, f);
    assert Keep(ScenarioWithdrawal, f);
    VisiblePair(ScenarioDeposit, ScenarioWithdrawal, f);
  }
}

=== FILE: TransactionList.dfy ===
/** The `Transactions` list view: the heading, the empty state or one row
    per transaction, and the filter button's badge. */
module TransactionList {
  import opened Basics
  import opened Decimal
  import opened Types
  import opened Money
  import opened DateFormat
  import TransactionFilter

  const HeadingSuffix: string := " Transactions"

  /** The heading: the number of transactions passed in. */
  function Heading(ts: seq<Transaction>): string {
    NatToString(|ts|) + HeadingSuffix
  }

  /** Reads the count back out of a heading. */
  function ReadHeading(s: string): Option<nat> {
    if |s| >= |HeadingSuffix| && s[|s| - |HeadingSuffix|..] == HeadingSuffix then
      ReadNat(s[..|s| - |HeadingSuffix|])
    else None
  }

  /** One rendered transaction. `withdrawal` selects the avatar style and
      `statusClass` is the subtitle's class name. */
  datatype Row = Row(
    withdrawal: bool,
    title: string,
    subtitle: string,
    statusClass: string,
    amount: string,
    date: string)

  /** The list area: the empty-state message or the rows. */
  datatype ListBody = EmptyState | Rows(rows: seq<Row>)

  /** A withdrawal is recognised by an exact, case-sensitive match. */
  predicate IsWithdrawal(t: Transaction) {
    t.kind == "withdrawal"
  }

  /** `metadata?.product_name` and `metadata?.name`. */
  function ProductName(t: Transaction): Option<string> {
    if t.metadata.Some? then t.metadata.value.productName else None
  }

  function CustomerName(t: Transaction): Option<string> {
    if t.metadata.Some? then t.metadata.value.name else None
  }

  /** The row of one transaction. `amount || 0` is the amount itself for a
      whole number of cents. */
  function RowOf(t: Transaction): Row {
    var w := IsWithdrawal(t);
    Row(
      w,
      if w then "Cash withdrawal" else ProductName(t).GetOr("Deposit"),
      if w then t.status else CustomerName(t).GetOr("Roy Cash"),
      if w then t.status else "",
      FormatMoney(t.amount),
      FormatDate(t.date))
  }

  function RowsOf(ts: seq<Transaction>): seq<Row>
    decreases |ts|
  {
    if |ts| == 0 then [] else [RowOf(ts[0])] + RowsOf(ts[1..])
  }

  /** `transactions.length === 0 ? <empty state> : transactions.map(...)`. */
  function Body(ts: seq<Transaction>): ListBody {
    if |ts| == 0 then EmptyState else Rows(RowsOf(ts))
  }

  /** The badge on the filter button: the number of keys of the filters
      object, shown only when there is at least one. */
  function FilterBadge<V>(filters: map<string, V>): Option<nat> {
    if |filters.Keys| > 0 then Some(|filters.Keys|) else None
  }

  /** `setFilters({...filters, ...data})`: a shallow merge in which `data`
      wins. */
  function MergeFilters<V>(filters: map<string, V>, data: map<string, V>): map<string, V> {
    filters + data
  }

  // ---------------------------------------------------------------------
  // Heading and body

  /** The heading states the length of the list it was given. */
  lemma HeadingCount(ts: seq<Transaction>)
    ensures ReadHeading(Heading(ts)) == Some(|ts|)
  {
    var h := Heading(ts);
    assert h[|h| - |HeadingSuffix|..] == HeadingSuffix;
    assert h[..|h| - |HeadingSuffix|] == NatToString(|ts|);
    ReadNatRoundTrip(|ts|);
  }

  lemma {:induction false} RowsOfIndexed(ts: seq<Transaction>)
    ensures |RowsOf(ts)| == |ts|
    ensures forall i :: 0 <= i < |ts| ==> RowsOf(ts)[i] == RowOf(ts[i])
    decreases |ts|
  {
    if |ts| > 0 {
      RowsOfIndexed(ts[1..]);
      forall i | 0 <= i < |ts|
        ensures RowsOf(ts)[i] == RowOf(ts[i])
      {
        if i > 0 {
          assert RowsOf(ts)[i] == RowsOf(ts[1..])[i - 1];
        }
      }
    }
  }

  /** The empty state shows iff there are no transactions; otherwise there
      is exactly one row per transaction, in the list's order. */
  lemma BodyShape(ts: seq<Transaction>)
    ensures Body(ts).EmptyState? <==> |ts| == 0
    ensures Body(ts).Rows? ==>
              (|Body(ts).rows| == |ts| && forall i :: 0 <= i < |ts| ==> Body(ts).rows[i] == RowOf(ts[i]))
  {
    RowsOfIndexed(ts);
  }

  // ---------------------------------------------------------------------
  // Rows

  /** A withdrawal row is titled "Cash withdrawal" with the status below it,
      also used as the subtitle's class. */
  lemma WithdrawalRow(t: Transaction)
    requires IsWithdrawal(t)
    ensures RowOf(t).withdrawal
    ensures RowOf(t).title == "Cash withdrawal"
    ensures RowOf(t).subtitle == t.status && RowOf(t).statusClass == t.status
  {
  }

  /** Any other row shows the product name, or "Deposit" when it (or the
      whole metadata) is missing, over the customer name, or "Roy Cash". An
      empty name is shown as it is. */
  lemma OtherRow(t: Transaction)
    requires !IsWithdrawal(t)
    ensures !RowOf(t).withdrawal && RowOf(t).statusClass == ""
    ensures t.metadata.Some? && t.metadata.value.productName.Some? ==>
              RowOf(t).title == t.metadata.value.productName.value
    ensures (t.metadata.None? || t.metadata.value.productName.None?) ==> RowOf(t).title == "Deposit"
    ensures t.metadata.Some? && t.metadata.value.name.Some? ==>
              RowOf(t).subtitle == t.metadata.value.name.value
    ensures (t.metadata.None? || t.metadata.value.name.None?) ==> RowOf(t).subtitle == "Roy Cash"
  {
  }

  /** The row's amount text reads back as the transaction's amount, and its
      date text as the transaction's local day, or is the invalid-date text
      when the date could not be parsed. */
  lemma RowReadsBack(t: Transaction)
    ensures ReadMoney(RowOf(t).amount) == Some(t.amount)
    ensures t.date.At? ==> ReadDate(RowOf(t).date) == Some(t.date.local)
    ensures t.date.InvalidDate? ==> RowOf(t).date == InvalidDateText
  {
    ReadMoneyRoundTrip(t.amount);
    if t.date.At? {
      ReadDateRoundTrip(t.date.millis, t.date.local);
    }
  }

  // ---------------------------------------------------------------------
  // The filter badge and the merge

  /** The badge is shown iff the filters object has a key, and then shows
      how many. The view starts with no filters, so with no badge. */
  lemma FilterBadgeCount<V>(filters: map<string, V>)
    ensures FilterBadge(filters).Some? <==> filters != map[]
    ensures FilterBadge(filters).Some? ==> FilterBadge(filters).value == |filters|
  {
    if filters != map[] {
      var k :| k in filters;
      assert k in filters.Keys;
    }
  }

  /** Keys of `data` take its values, every other key keeps its value, and
      no other key appears. */
  lemma MergeOverwrites<V>(filters: map<string, V>, data: map<string, V>)
    ensures MergeFilters(filters, data).Keys == filters.Keys + data.Keys
    ensures forall k :: k in data ==> MergeFilters(filters, data)[k] == data[k]
    ensures forall k :: k in filters && k !in data ==> MergeFilters(filters, data)[k] == filters[k]
  {
  }

  /** Applying the same data twice is applying it once; applying no data
      changes nothing; the badge never shrinks. */
  lemma MergeLaws<V>(filters: map<string, V>, data: map<string, V>)
    ensures MergeFilters(MergeFilters(filters, data), data) == MergeFilters(filters, data)
    ensures MergeFilters(filters, map[]) == filters
    ensures |MergeFilters(filters, data)| >= |filters|
  {
    var m := MergeFilters(filters, data);
    assert filters.Keys <= m.Keys;
    SubsetCard(filters.Keys, m.Keys);
  }

  lemma SubsetCard<K>(a: set<K>, b: set<K>)
    requires a <= b
    ensures |a| <= |b|
  {
    assert b == a + (b - a);
  }

  // ---------------------------------------------------------------------
  // The dashboard as a whole

  /** Without filters the heading counts every transaction and every
      transaction gets a row. */
  lemma UnfilteredView(ts: seq<Transaction>)
    ensures ReadHeading(Heading(TransactionFilter.Visible(ts, NoFilters))) == Some(|ts|)
    ensures |ts| > 0 ==> Body(TransactionFilter.Visible(ts, NoFilters)) == Rows(RowsOf(ts))
  {
    TransactionFilter.NoFiltersShowsAll(ts);
    HeadingCount(ts);
  }

  /** The two transactions of the unit tests give the heading
      "2 Transactions" and rows titled "Test Product" and "Cash withdrawal". */
  lemma TwoTransactionsView(deposit: Transaction, withdrawal: Transaction)
    requires deposit.kind == "deposit" && deposit.metadata.Some? &&
             deposit.metadata.value.productName == Some("Test Product")
    requires withdrawal.kind == "withdrawal"
    ensures Heading([deposit, withdrawal]) == "2 Transactions"
    ensures Body([deposit, withdrawal]).Rows? && |Body([deposit, withdrawal]).rows| == 2
    ensures Body([deposit, withdrawal]).rows[0].title == "Test Product"
    ensures Body([deposit, withdrawal]).rows[1].title == "Cash withdrawal"
  {
    HeadingOfTwo([deposit, withdrawal]);
    BodyShape([deposit, withdrawal]);
    OtherRow(deposit);
    WithdrawalRow(withdrawal);
  }

  lemma HeadingOfTwo(ts: seq<Transaction>)
    requires |ts| == 2
    ensures Heading(ts) == "2 Transactions"
  {
    assert NatToString(2) == "2";
  }
}

=== FILE: Types.dfy ===
/** The records the dashboard works on. */
module Types {
  import opened Basics
  import opened Calendar

  /** The free-form display fields of a transaction; any of them may be
      missing. */
  datatype Metadata = Metadata(
    name: Option<string>,
    kind: Option<string>,
    email: Option<string>,
    quantity: Option<int>,
    country: Option<string>,
    productName: Option<string>)

  /** One transaction. `amount` is in cents; `date` is the ISO text as
      `new Date` decodes it, its instant and calendar day agreeing; `kind` is
      the record's `type` field. */
  datatype Transaction = Transaction(
    amount: int,
    date: DecodedDate,
    metadata: Option<Metadata>,
    paymentReference: string,
    status: string,
    kind: string)

  /** The bounds of a date-range filter, as instants on the local clock;
      either may be missing. */
  datatype DateRange = DateRange(startDate: Option<int>, endDate: Option<int>)

  /** The committed filter. An absent field places no constraint. */
  datatype Filters = Filters(
    dateRange: Option<DateRange>,
    transactionType: Option<seq<string>>,
    transactionStatus: Option<seq<string>>)

  /** The filter the dashboard starts with, and the one clearing restores. */
  const NoFilters: Filters := Filters(None, None, None)
}
